=== FILE: README.md ===
# Hazelcast query parser, multimap proxy and entry-listener request, in Dafny

This project models three pieces of an early Hazelcast (Java) code base and
proves properties of the models.

- **The SQL-like query parser** (`Parser`). `toPrefix` normalises `in (...)`
  clauses (`alignINClause`, `findMinIfNot`), splits the text into tokens
  (`split`), and folds each `between a and b` into one token
  (`buildTokens`). It then reorders the tokens into postfix order with a
  shunting-yard loop over the `PRECEDENCE` table (`isOperand`,
  `hasHigherPrecedence`, `openParanthesesFound`). Modules:
  - `QueryText`: the string primitives the parser relies on (`trim`,
    lower-casing, `equalsIgnoreCase`, `indexOf`, `substring`,
    `replaceAll(" ", "")`);
  - `QueryInClause`;
  - `QueryTokens`;
  - `QueryBetween`;
  - `QueryParser`.
- **The client side of a distributed multimap** (`MultiMapProxySupport`),
  module `MultiMapProxy`. It covers the value-collection factory and the
  operation each key-scoped verb builds, with a thread id only on the
  verbs that change entries. It routes a key's operation to the partition
  owning the key. It merges the answers of the verbs sent to every
  partition (`keySet`, `size`, `contains`, `values`, `entrySet`, `clear`),
  where a fault replaces the whole result.
- **The request that registers a map entry listener**
  (`MapAddEntryListenerRequest`), module `EntryListenerRequest`. It covers
  the constructors, `getClassId`, and the portable `write`/`read` pair: named
  fields `name`, `i`, `key`, `pre`, then a raw stream holding the predicate
  and the key when they are present.

Java exceptions are the `Failure` side of `Wrappers.Result`; a Java null is
`Wrappers.None`. The node a proxy runs on is a parameter (`MultiMapProxy.Node`):
the partition of a key, the answer to one invocation, and the answers to an
operation sent to every partition.

Five behaviours of the code that a reader might not expect:
- **Positional verbs on SET maps.** `MultiMapProxySupport` does not check
  the collection type before `get`, `set`, `removeAt`, `indexOf` or `addAll`
  at an index. Every verb builds its operation and sends it, whatever the
  map's value-collection type.
- **Fan-out faults.** Every fan-out verb rethrows the fault the fan-out or
  the merge raised. That includes a `ClassCastException` from an answer of
  an unexpected type.
- **Order of mixed answers.** `containsInternal` returns at the first true
  answer. When the answers mix Booleans with other types, the outcome
  depends on the order the map yields them: a true first gives true, and
  an answer of another type first throws `ClassCastException`.
- **Size arithmetic.** `sizeInternal` adds the counts in a Java `int`, which
  wraps around. The model proves that the wrapped total does not depend on
  the order of the answers.
- **The `createNew` failure.** The configured type is SET or LIST, so the
  `IllegalArgumentException` at the end of `createNew` is never thrown.
  With no type configured, the first `equals` throws
  `NullPointerException`, and the model returns that.

To check the proofs, run `dafny verify *.dfy` with Dafny 4.11. The files
need no include and no library.

## Model

| member | source | states |
|---|---|---|
| QueryText.Trim | hazelcast/src/main/java/com/hazelcast/query/Parser.java:143 | the trimmed token is no longer than the input, has no character at or below U+0020 at either end, and equals the input when no character is trimmable |
| QueryText.TrimIndex | hazelcast/src/main/java/com/hazelcast/query/Parser.java:143 | every character of the trimmed token is the input's character at one fixed offset, so `trim` only cuts the ends |
| QueryText.TrimExact | hazelcast/src/main/java/com/hazelcast/query/Parser.java:143 | the trimmed token is the input with exactly the trimmable characters at its two ends cut: every cut character is at or below U+0020 and the token neither starts nor ends with one |
| QueryText.EqualsIgnoreCaseIsLower | hazelcast/src/main/java/com/hazelcast/query/Parser.java:103 | comparing two texts ignoring case is the same as comparing their lower-cased forms |
| QueryText.IndexOf | hazelcast/src/main/java/com/hazelcast/query/Parser.java:169-172 | the result is the first index at which the pattern occurs, and -1 exactly when it occurs nowhere |
| QueryText.IndexOfChar | hazelcast/src/main/java/com/hazelcast/query/Parser.java:186-187 | the result is the first index at or after `from` holding the character, or -1 when none does; a negative `from` searches from the start |
| QueryText.Substring | hazelcast/src/main/java/com/hazelcast/query/Parser.java:188-191 | succeeds exactly when 0 <= begin <= end <= length, with that slice; otherwise StringIndexOutOfBounds |
| QueryText.InsertSpace | hazelcast/src/main/java/com/hazelcast/query/Parser.java:182 | one space appears at the given index, every other character keeps its order, and the text without spaces is unchanged |
| QueryInClause.FindMinIfNot | hazelcast/src/main/java/com/hazelcast/query/Parser.java:204-212 | the result is one of the two candidates; it lies above the bound exactly when one of them does, and is then no larger than any candidate above the bound; with the first at or below the bound it is the second, and with only the first above it is the first |
| QueryInClause.LeastAbove | hazelcast/src/main/java/com/hazelcast/query/Parser.java:204-212 | the reference definition: the least candidate above the bound when one exists, else the fallback |
| QueryInClause.FindMinIfNotIsLeastAbove | hazelcast/src/main/java/com/hazelcast/query/Parser.java:204-212 | `findMinIfNot(a, b, notMin)` is the least of a and b above the bound with b as fallback, and does not depend on the order of its arguments when either lies above the bound |
| QueryInClause.FindMinIfNotChain | hazelcast/src/main/java/com/hazelcast/query/Parser.java:174-177 | the nested calls give the least of the four keyword indexes that is not -1, or -1 when none occurs |
| QueryInClause.FirstInKeyword | hazelcast/src/main/java/com/hazelcast/query/Parser.java:169-177 | the earliest index at which " in ", " in(", " IN " or " IN(" starts, and -1 exactly when none of them occurs |
| QueryInClause.Spaced | hazelcast/src/main/java/com/hazelcast/query/Parser.java:179-183 | when the first keyword is " in(" or " IN(", the text gains one space after the three keyword characters, and is otherwise unchanged; the keyword still starts with a space, and the text before it and the text without spaces stay the same |
| QueryInClause.LocateGroup | hazelcast/src/main/java/com/hazelcast/query/Parser.java:186-191 | succeeds exactly when a "(" and a later ")" follow the keyword; the pieces put together give the text back, the group runs from the first "(" after the keyword to the first ")" after that; with no "(" or no ")" after the keyword, StringIndexOutOfBounds |
| QueryInClause.AlignStep | hazelcast/src/main/java/com/hazelcast/query/Parser.java:184-194 | when the first keyword has a group, `alignINClause` keeps the text before the group, deletes the spaces inside it, and recurses on the text after it, failing exactly when the recursion does |
| QueryInClause.AlignOneClause | hazelcast/src/main/java/com/hazelcast/query/Parser.java:184-194 | with no keyword after the group, the result is the text before the group, the group without spaces, then the rest unchanged |
| QueryInClause.AlignInClause | hazelcast/src/main/java/com/hazelcast/query/Parser.java:168-195 | the only fault `alignINClause` can raise is StringIndexOutOfBounds |
| QueryInClause.AlignWithoutKeyword | hazelcast/src/main/java/com/hazelcast/query/Parser.java:184-194 | text with no `in` keyword comes back unchanged |
| QueryInClause.AlignKeepsNonSpaces | hazelcast/src/main/java/com/hazelcast/query/Parser.java:168-195 | a successful alignment differs from its input only in spaces |
| QueryInClause.AlignFailsWithoutGroup | hazelcast/src/main/java/com/hazelcast/query/Parser.java:186-188 | with no "(" or no ")" after the first keyword, alignment throws StringIndexOutOfBounds |
| QueryInClause.AlignExampleSpaced | hazelcast/src/main/java/com/hazelcast/query/Parser.java:184-191 | "a in (1, 2)" becomes "a in (1,2)" |
| QueryInClause.AlignExampleParen | hazelcast/src/main/java/com/hazelcast/query/Parser.java:179-191 | "a in(1, 2)" gains a space after `in` and becomes "a in (1,2)" |
| QueryTokens.Split | hazelcast/src/main/java/com/hazelcast/query/Parser.java:123-149 | every token `split` returns is non-empty and holds no space |
| QueryTokens.SplitIsolatesOperators | hazelcast/src/main/java/com/hazelcast/query/Parser.java:126-139 | every token either holds no operator character, or is an operator of one character, or of two whose second is not a parenthesis |
| QueryTokens.SplitIsScan | hazelcast/src/main/java/com/hazelcast/query/Parser.java:123-149 | for text without control characters, `split` gives exactly the tokens of one left-to-right reading, in which an operator character forms a token with the next only when that is a non-parenthesis operator and at least one more character follows |
| QueryTokens.ScanExampleMerged | hazelcast/src/main/java/com/hazelcast/query/Parser.java:129-132 | in "x>=1" the two operator characters form one token ">=" |
| QueryTokens.ScanExampleAtEnd | hazelcast/src/main/java/com/hazelcast/query/Parser.java:129-135 | in "a>=" the pair ends the text, so ">" and "=" become two tokens |
| QueryTokens.SplitLosesOnlySpaces | hazelcast/src/main/java/com/hazelcast/query/Parser.java:123-149 | for text without control characters, the tokens put together give the input with its spaces deleted |
| QueryTokens.CutAtSpace | hazelcast/src/main/java/com/hazelcast/query/Parser.java:140-147 | splitting on " " and dropping empty trimmed pieces splits the text on either side of a space separately |
| QueryBetween.FirstBetween | hazelcast/src/main/java/com/hazelcast/query/Parser.java:102-103 | the index of the first token equal to "between" ignoring case, or the length when there is none |
| QueryBetween.FirstBetweenIsFirst | hazelcast/src/main/java/com/hazelcast/query/Parser.java:102-103 | no token before that index equals "between" ignoring case |
| QueryBetween.FoldBetweens | hazelcast/src/main/java/com/hazelcast/query/Parser.java:100-111 | the labelled loop fails only with IndexOutOfBounds and never adds a token; FoldIsScan, FoldBetweensPrefix and ScanLeavesNoBetween give its result |
| QueryBetween.RemoveAt | hazelcast/src/main/java/com/hazelcast/query/Parser.java:105 | `List.remove(i)` succeeds exactly when i is below the length; it then keeps the tokens before i, shifts those after it down by one, and shortens the list by one; otherwise IndexOutOfBounds |
| QueryBetween.FoldIsScan | hazelcast/src/main/java/com/hazelcast/query/Parser.java:100-111 | the loop that restarts from the first token after every fold gives the same result, or fault, as one left-to-right scan |
| QueryBetween.FoldBetweensPrefix | hazelcast/src/main/java/com/hazelcast/query/Parser.java:100-111 | tokens before the first "between" pass through the fold untouched |
| QueryBetween.ScanLeavesNoBetween | hazelcast/src/main/java/com/hazelcast/query/Parser.java:100-111 | when the loop ends, no token equals "between" ignoring case |
| QueryBetween.FoldFailsOnShortFirst | hazelcast/src/main/java/com/hazelcast/query/Parser.java:103-105 | a "between" followed by fewer than two tokens makes `remove(i + 2)` throw IndexOutOfBounds |
| QueryBetween.ScanRemovesOnePerFold | hazelcast/src/main/java/com/hazelcast/query/Parser.java:104-105 | each fold removes exactly one token: the list shrinks by the number of placeholders left in it |
| QueryBetween.FoldTokensWithoutBetween | hazelcast/src/main/java/com/hazelcast/query/Parser.java:97 | without a token spelled exactly "between" or "BETWEEN" the tokens are returned as they are, even when a mixed-case spelling is present |
| QueryBetween.FoldTokensWithBetween | hazelcast/src/main/java/com/hazelcast/query/Parser.java:96-120 | with such a token, `buildTokens` succeeds exactly when the scan does, returns the scan with the placeholders restored, and otherwise throws IndexOutOfBounds |
| QueryBetween.FoldTokensLeavesCleanBetweens | hazelcast/src/main/java/com/hazelcast/query/Parser.java:112-118 | after folding no placeholder is left, and every token equal to "between" ignoring case is the lower-case "between" |
| QueryBetween.FoldTokens | hazelcast/src/main/java/com/hazelcast/query/Parser.java:97-120 | folding fails only with IndexOutOfBounds and never adds a token |
| QueryBetween.BuildTokens | hazelcast/src/main/java/com/hazelcast/query/Parser.java:95-121 | `buildTokens` fails only with IndexOutOfBounds and returns no more tokens than `split` gave |
| QueryParser.LookupFound | hazelcast/src/main/java/com/hazelcast/query/Parser.java:30-50 | a key in the table gives the value entered for it |
| QueryParser.LookupMissing | hazelcast/src/main/java/com/hazelcast/query/Parser.java:30-50 | a key not in the table gives no precedence (the model's 0 for Java's null) |
| QueryParser.RankOfAnd | hazelcast/src/main/java/com/hazelcast/query/Parser.java:151-153 | the lookup lower-cases its key: "and" and "AND" both bind at 5 |
| QueryParser.RankOfOperand | hazelcast/src/main/java/com/hazelcast/query/Parser.java:155-157 | a token whose lower-cased first character starts no key of the table is not an operator |
| QueryParser.IsOperatorIsKey | hazelcast/src/main/java/com/hazelcast/query/Parser.java:155-157 | `isOperand` holds exactly when the lower-cased token is a key of the table |
| QueryParser.PrecedenceIgnoresCase | hazelcast/src/main/java/com/hazelcast/query/Parser.java:151-157 | both `isOperand` and `hasHigherPrecedence` give the same answer for a token as for its lower-case form |
| QueryParser.PopWhile | hazelcast/src/main/java/com/hazelcast/query/Parser.java:159-161 | the pops, guarded by `openParanthesesFound`, take a suffix of the stack top first onto the output, never pop a "(", and stop only at the bottom, at a "(" on top, or where the stop condition holds |
| QueryParser.PopToOpen | hazelcast/src/main/java/com/hazelcast/query/Parser.java:72-74 | on ")", operators move from the top of the stack to the output, top first, up to the nearest "(" or the bottom |
| QueryParser.PopNotLower | hazelcast/src/main/java/com/hazelcast/query/Parser.java:80-82 | before a push, every operator that does not bind less tightly than the token moves to the output, top first, stopping at "(" or at a looser operator |
| QueryParser.RunKeepsStackOk | hazelcast/src/main/java/com/hazelcast/query/Parser.java:69-88 | the stack only ever holds operators, never ")" |
| QueryParser.RunKeepsOrdered | hazelcast/src/main/java/com/hazelcast/query/Parser.java:80-83 | on the stack, each operator binds more tightly than the one below it, except next to "(" |
| QueryParser.StepConserves | hazelcast/src/main/java/com/hazelcast/query/Parser.java:69-87 | one iteration adds its token to the tokens held by output and stack together, parentheses aside, and loses none |
| QueryParser.ToPostfix | hazelcast/src/main/java/com/hazelcast/query/Parser.java:67-92 | ")" never reaches the output, and "(" does only when left unclosed on the stack; the operands come out in input order; apart from parentheses the output is a permutation of the input |
| QueryParser.ToPostfixOfConnective | hazelcast/src/main/java/com/hazelcast/query/Parser.java:64-92 | `x1 op1 y1 conj x2 op2 y2`, with `conj` binding less tightly than both comparisons, comes out as `x1 y1 op1 x2 y2 op2 conj` |
| QueryParser.ToPostfixExample | hazelcast/src/main/java/com/hazelcast/query/Parser.java:64-92 | the tokens of "x = 1 and y = 2" come out as x 1 = y 2 = and |
| QueryParser.ToPrefix | hazelcast/src/main/java/com/hazelcast/query/Parser.java:64-93 | `toPrefix` fails only with StringIndexOutOfBounds or IndexOutOfBounds; on success alignment and `buildTokens` succeeded, and the output has no ")", keeps the operands of the built tokens in order, and holds the same tokens as they do other than parentheses |
| MultiMapProxy.CreateNew | hazelcast/src/main/java/com/hazelcast/collection/multimap/MultiMapProxySupport.java:53-60 | SET gives an empty hash set, LIST an empty linked list, no type a NullPointerException |
| MultiMapProxy.AddEachToSet | hazelcast/src/main/java/com/hazelcast/collection/multimap/MultiMapProxySupport.java:55 | adding values one by one to a hash set gives the set holding its old elements and the new values, each once |
| MultiMapProxy.AddEachToList | hazelcast/src/main/java/com/hazelcast/collection/multimap/MultiMapProxySupport.java:57 | adding values one by one to a linked list appends them in order, duplicates kept |
| MultiMapProxy.NewCollectionHolds | hazelcast/src/main/java/com/hazelcast/collection/multimap/MultiMapProxySupport.java:53-58 | a new collection given some values holds exactly those values; SET counts each distinct value once, LIST holds them all in the order added |
| MultiMapProxy.OperationFor | hazelcast/src/main/java/com/hazelcast/collection/multimap/MultiMapProxySupport.java:62-96 | the operation carries the proxy id and the key, the request can be read back from it, and it carries the caller's thread id exactly when the verb changes entries |
| MultiMapProxy.OperationForInjective | hazelcast/src/main/java/com/hazelcast/collection/multimap/MultiMapProxySupport.java:62-96 | two verbs build the same operation only for the same proxy, key and request, and for writing verbs the same thread id |
| MultiMapProxy.KeyedInternal | hazelcast/src/main/java/com/hazelcast/collection/multimap/MultiMapProxySupport.java:62-96 | a key-scoped verb returns the node's answer to one invocation on the key's partition, for the collection service, carrying the proxy id, key and request, and the thread id exactly when the verb writes |
| MultiMapProxy.ListVerbThreads | hazelcast/src/main/java/com/hazelcast/collection/multimap/MultiMapProxySupport.java:193-272 | count, get, contains, containsAll and indexOf send no thread id; set, remove at an index, addAll and compareAndRemove send the caller's |
| MultiMapProxy.Route | hazelcast/src/main/java/com/hazelcast/collection/multimap/MultiMapProxySupport.java:286-308 | a key's operation goes, unchanged, to the collection service on the partition that owns the key |
| MultiMapProxy.KeyedTouchesOnePartition | hazelcast/src/main/java/com/hazelcast/collection/multimap/MultiMapProxySupport.java:286-296 | a key-scoped verb's result, or fault, depends only on the key's partition and the one invocation sent there |
| MultiMapProxy.SameKeySamePartition | hazelcast/src/main/java/com/hazelcast/collection/multimap/MultiMapProxySupport.java:298-308 | any two verbs on the same key go to the same partition |
| MultiMapProxy.Clear | hazelcast/src/main/java/com/hazelcast/collection/multimap/MultiMapProxySupport.java:183-191 | succeeds exactly when the fan-out does, dropping the answers; otherwise rethrows its fault |
| MultiMapProxy.ClearIgnoresAnswers | hazelcast/src/main/java/com/hazelcast/collection/multimap/MultiMapProxySupport.java:183-191 | two fan-outs that both succeed, with any answers, or fail with the same fault give the same `clear` result |
| MultiMapProxy.MergeKeySet | hazelcast/src/main/java/com/hazelcast/collection/multimap/MultiMapProxySupport.java:107-115 | skipping nulls, the result is the union of every answer's elements; any answer that is not a collection response makes the call fail with ClassCastException |
| MultiMapProxy.KeySetInternal | hazelcast/src/main/java/com/hazelcast/collection/multimap/MultiMapProxySupport.java:102-119 | a fan-out fault is rethrown unchanged; otherwise the call succeeds exactly when every answer is null or a collection response, returning the union of the partitions' keys, and fails with ClassCastException when one is not |
| MultiMapProxy.KeysOfOrder | hazelcast/src/main/java/com/hazelcast/collection/multimap/MultiMapProxySupport.java:108-114 | the key set is the same whatever order the answers are visited in |
| MultiMapProxy.MergeContains | hazelcast/src/main/java/com/hazelcast/collection/multimap/MultiMapProxySupport.java:149-158 | fails, with ClassCastException, exactly when an answer that is neither null nor a Boolean comes before every true answer; on success the result is true exactly when some answer is true; with only null and Boolean answers it always succeeds |
| MultiMapProxy.ContainsInternal | hazelcast/src/main/java/com/hazelcast/collection/multimap/MultiMapProxySupport.java:144-162 | a fan-out fault is rethrown unchanged; otherwise the call fails with ClassCastException exactly when a non-Boolean answer comes before every true one, and else returns whether some partition answered true |
| MultiMapProxy.ContainsOrderMatters | hazelcast/src/main/java/com/hazelcast/collection/multimap/MultiMapProxySupport.java:149-157 | the order of mixed answers decides: a true before an answer of another type gives true, the reverse order throws ClassCastException |
| MultiMapProxy.MergeSize | hazelcast/src/main/java/com/hazelcast/collection/multimap/MultiMapProxySupport.java:169-177 | with every answer null or an Integer, the result is the exact sum of the counts wrapped into a 32-bit int; otherwise ClassCastException |
| MultiMapProxy.SizeInternal | hazelcast/src/main/java/com/hazelcast/collection/multimap/MultiMapProxySupport.java:164-181 | a fan-out fault is rethrown unchanged; otherwise the call succeeds exactly when every answer is null or an Integer, returning the wrapped sum of the counts, and fails with ClassCastException when one is not |
| MultiMapProxy.WrapAdd | hazelcast/src/main/java/com/hazelcast/collection/multimap/MultiMapProxySupport.java:175 | wrapping after every addition gives the same int as wrapping the exact total once |
| MultiMapProxy.CountSumOrder | hazelcast/src/main/java/com/hazelcast/collection/multimap/MultiMapProxySupport.java:170-176 | the exact total is the same for any order of the same answers |
| MultiMapProxy.SizeOfCounts | hazelcast/src/main/java/com/hazelcast/collection/multimap/MultiMapProxySupport.java:164-181 | size is 0 when every answer is null, equals the exact total when that fits an int, and does not depend on the answers' order |
| EntryListenerRequest.NewRequest | hazelcast/src/main/java/com/hazelcast/map/client/MapAddEntryListenerRequest.java:33-35 | a request built for reading has no name, no key, no predicate and does not include values |
| EntryListenerRequest.NewMapRequest | hazelcast/src/main/java/com/hazelcast/map/client/MapAddEntryListenerRequest.java:37-39 | keeps the name and the value flag, with no key and no predicate |
| EntryListenerRequest.NewKeyRequest | hazelcast/src/main/java/com/hazelcast/map/client/MapAddEntryListenerRequest.java:41-43 | keeps the name, key and value flag, with no predicate |
| EntryListenerRequest.NewPredicateRequest | hazelcast/src/main/java/com/hazelcast/map/client/MapAddEntryListenerRequest.java:45-48 | keeps all four arguments |
| EntryListenerRequest.ConstructorsAgree | hazelcast/src/main/java/com/hazelcast/map/client/MapAddEntryListenerRequest.java:33-48 | the three narrower constructors are the four-argument one with the missing arguments null and the value flag false for the no-argument one, and every request is what the four-argument one builds from its fields |
| EntryListenerRequest.ConstructedRequestsRoundTrip | hazelcast/src/main/java/com/hazelcast/map/client/MapAddEntryListenerRequest.java:37-100 | requests from each constructor survive `write` then `read` into a new request; a request for every entry writes nothing raw, and one for a key writes only the key |
| EntryListenerRequest.Write | hazelcast/src/main/java/com/hazelcast/map/client/MapAddEntryListenerRequest.java:59-80 | fields name, i, key, pre in that order; `key` is true exactly when a key is present and `pre` exactly when a predicate is; the raw stream holds predicate then key, either alone, or nothing |
| EntryListenerRequest.Read | hazelcast/src/main/java/com/hazelcast/map/client/MapAddEntryListenerRequest.java:82-100 | a successful read found the four fields, took the name and value flag from them, kept the request's key or predicate when its flag is false, and took the predicate from the first raw item and the key from the item after the predicate, or the first item when there is no predicate, when the flag is true. The read succeeds exactly when the four fields are present and each flagged raw item is there with the right kind; every failure is a serialization fault. ReadAfterWrite and ReadWriteRoundTrip give it as the inverse of write |
| EntryListenerRequest.ReadAfterWrite | hazelcast/src/main/java/com/hazelcast/map/client/MapAddEntryListenerRequest.java:82-100 | reading a written request gives back its name, value flag, and present key and predicate; an absent one keeps what the request read into held |
| EntryListenerRequest.ReadWriteRoundTrip | hazelcast/src/main/java/com/hazelcast/map/client/MapAddEntryListenerRequest.java:59-100 | reading into a new request gives back exactly the request written |
| EntryListenerRequest.WriteIsInjective | hazelcast/src/main/java/com/hazelcast/map/client/MapAddEntryListenerRequest.java:59-80 | two requests with the same written form are equal |
| EntryListenerRequest.ReadWithoutFlagsIgnoresRaw | hazelcast/src/main/java/com/hazelcast/map/client/MapAddEntryListenerRequest.java:86-98 | with both flags false, `read` never looks at the raw stream and leaves key and predicate as they were |
| EntryListenerRequest.ReadOfMissingRaw | hazelcast/src/main/java/com/hazelcast/map/client/MapAddEntryListenerRequest.java:87-98 | a flag that promises a key or predicate an empty raw stream does not hold makes `read` fail |

## Left out

- Networking, futures, the partition service and `toObject` are the
  functions of a `MultiMapProxy.Node` parameter. What each operation does on
  its partition is not part of this model.
- `ThreadContext.getThreadId` is a `thread` parameter.
- The lock support built in the constructor of `MultiMapProxySupport` is not
  modelled, and neither are `localKeySetInternal` (it reads the local
  service's state) or `getId`.
- The cast of `invoke`'s answer to the caller's type is not modelled: key-scoped verbs return the deserialized answer.
- The partition ids in a fan-out answer are kept but not checked for
  distinctness; the merges use only the answers, in the map's iteration order.
- `CollectionService.SERVICE_NAME` and `MapPortableHook.ADD_ENTRY_LISTENER`
  are defined in files that are not part of this model. Each is a
  one-constant enumeration here, not its string or number.
- `getPredicate` is the `entryPredicate` field of a request.
- `getName`, `getServiceName` and `getClassId` only return a field or a
  constant. They are modelled (`MultiMapProxy.GetName`,
  `MultiMapProxy.GetServiceName`, `EntryListenerRequest.GetClassId`) but
  promise nothing beyond their bodies, so they have no contract.
- `valuesInternal` and `entrySetInternal` return the fan-out's answers, or
  its fault, unchanged. `MultiMapProxy.ValuesInternal` and
  `MultiMapProxy.EntrySetInternal` are those pass-throughs, with no
  contract of their own. `MultiMapProxy.AllPartitions` is the node
  parameter's `invokeOnAllPartitions`, not an operation of the proxy.
- The portable writer and reader are a list of named fields and a stream of
  items, not bytes. A predicate is known only by its serialized form. A
  missing field or an item of the wrong kind is a `Malformed` fault, because
  the reader's own exception types are not part of this model.
- Lower-casing (`lowerCaseInternal`, `equalsIgnoreCase`) is ASCII only.
  Locale rules and non-ASCII case pairs are left out.
- The `PRECEDENCE` hash map is a list of entries searched in order. Its keys
  are distinct, so the order does not change any lookup.
- The four `CHAR_OPERATORS` entries " + ", " - ", " * " and " / " are left out
  of the one-character test: a one-character string can never equal them.
- QueryParser.HasHigherPrecedence: the source unboxes a missing precedence
  and throws `NullPointerException` when either token is not an operator.
  The model ranks such a token 0 instead. The shunting-yard loop only
  compares operators (`StackOk`), so `toPrefix` never meets that case.
- QueryInClause.AlignInClause: its own contract names only the fault kind,
  because the result is defined by recursion on the rest of the text. One
  step of that recursion is stated for every input by AlignStep, over
  Spaced and LocateGroup, and the last step by AlignOneClause.
- QueryTokens.SplitLosesOnlySpaces: holds for text without control
  characters, because `trim` also deletes characters below U+0020.
- QueryTokens.SplitIsScan: holds for text without control characters, for
  the same reason.
- QueryText.Trim: its own contract does not say which characters are cut.
  TrimExact states that for every input: exactly the trimmable characters
  at the two ends go.
- QueryTokens.SplitIsolatesOperators: its own contract does not say when
  two operator characters form one token. SplitIsScan states that rule,
  including the "at least one more character follows" condition, for text
  without control characters.

=== FILE: entry_listener_request.dfy ===
/** The client request that registers an entry listener on a map
    (MapAddEntryListenerRequest), and its portable serialized form: named
    fields written through a `PortableWriter`, followed by a raw stream
    that holds the predicate and the key when there are any. */
module EntryListenerRequest {
  import opened Wrappers
  import opened SerialData

  /** A listener predicate, known here only by its serialized form. */
  datatype Predicate = Predicate(form: Data)

  /** The fields of the request: the map name, whether events carry the
      value, the key the listener is limited to, and the predicate events
      must satisfy. A Java null is `None`. */
  datatype Request = Request(
    name: Option<string>,
    includeValue: bool,
    key: Option<Data>,
    entryPredicate: Option<Predicate>)

  /** The class ids of the map's portable factory this request uses
      (`MapPortableHook.ADD_ENTRY_LISTENER`). */
  datatype ClassId = AddEntryListener

  /** The no-argument constructor, used before `read`. */
  function NewRequest(): (r: Request)
    ensures r.name.None? && !r.includeValue && r.key.None? && r.entryPredicate.None?
  {
    Request(None, false, None, None)
  }

  /** The constructor for a listener on every entry. */
  function NewMapRequest(name: Option<string>, includeValue: bool): (r: Request)
    ensures r.name == name && r.includeValue == includeValue
    ensures r.key.None? && r.entryPredicate.None?
  {
    Request(name, includeValue, None, None)
  }

  /** The constructor for a listener on one key. */
  function NewKeyRequest(name: Option<string>, key: Option<Data>, includeValue: bool): (r: Request)
    ensures r.name == name && r.includeValue == includeValue && r.key == key
    ensures r.entryPredicate.None?
  {
    Request(name, includeValue, key, None)
  }

  /** The constructor for a listener on one key, or every key, filtered by
      a predicate. */
  function NewPredicateRequest(name: Option<string>, key: Option<Data>, includeValue: bool, entryPredicate: Option<Predicate>): (r: Request)
    ensures r.name == name && r.includeValue == includeValue && r.key == key && r.entryPredicate == entryPredicate
  {
    Request(name, includeValue, key, entryPredicate)
  }

  /** `getClassId`: the same id for every request. */
  function GetClassId(req: Request): ClassId
  {
    AddEntryListener
  }

  /** One named field of the portable form. */
  datatype Field =
    | UtfField(fieldName: string, text: Option<string>)
    | BoolField(fieldName: string, flag: bool)

  /** One item of the raw stream: an object written with `writeObject`,
      or a `Data` written with `writeData`. */
  datatype RawItem = ObjectItem(obj: Predicate) | DataItem(data: Data)

  /** What a `PortableWriter` holds once `write` returns: the named fields
      in the order they were written, and the raw stream. */
  datatype Portable = Portable(fields: seq<Field>, raw: seq<RawItem>)

  function FieldName(f: Field): string {
    match f
    case UtfField(n, _) => n
    case BoolField(n, _) => n
  }

  /** `write`: the fields `name`, `i`, `key` and `pre`, in that order, then
      the predicate (when present) and the key (when present) on the raw
      stream. */
  function Write(req: Request): (p: Portable)
    ensures |p.fields| == 4
    ensures forall j :: 0 <= j < 4 ==> FieldName(p.fields[j]) == ["name", "i", "key", "pre"][j]
    ensures p.fields[0] == UtfField("name", req.name) && p.fields[1] == BoolField("i", req.includeValue)
    ensures p.fields[2] == BoolField("key", req.key.Some?) && p.fields[3] == BoolField("pre", req.entryPredicate.Some?)
    ensures req.entryPredicate.Some? && req.key.Some? ==> p.raw == [ObjectItem(req.entryPredicate.value), DataItem(req.key.value)]
    ensures req.entryPredicate.Some? && req.key.None? ==> p.raw == [ObjectItem(req.entryPredicate.value)]
    ensures req.entryPredicate.None? && req.key.Some? ==> p.raw == [DataItem(req.key.value)]
    ensures req.entryPredicate.None? && req.key.None? ==> p.raw == []
  {
    var hasKey := req.key.Some?;
    var fields := [UtfField("name", req.name), BoolField("i", req.includeValue), BoolField("key", hasKey)];
    if req.entryPredicate.None? then
      Portable(fields + [BoolField("pre", false)], if hasKey then [DataItem(req.key.value)] else [])
    else
      Portable(fields + [BoolField("pre", true)], [ObjectItem(req.entryPredicate.value)] + (if hasKey then [DataItem(req.key.value)] else []))
  }

  /** The first field called `name`, if any. */
  function FindField(fields: seq<Field>, name: string): (r: Option<Field>)
    ensures r.Some? ==> r.value in fields && FieldName(r.value) == name
    ensures r.None? ==> forall j :: 0 <= j < |fields| ==> FieldName(fields[j]) != name
  {
    if |fields| == 0 then None
    else if FieldName(fields[0]) == name then Some(fields[0])
    else FindField(fields[1..], name)
  }

  /** `readUTF(name)`: a missing field, or one of another kind, is a
      serialization fault. */
  function ReadUtf(p: Portable, name: string): (r: Result<Option<string>>)
    ensures r.Success? <==> FindField(p.fields, name).Some? && FindField(p.fields, name).value.UtfField?
    ensures r.Success? ==> r.value == FindField(p.fields, name).value.text
    ensures r.Failure? ==> r.error == Malformed(name)
  {
    match FindField(p.fields, name)
    case Some(UtfField(_, text)) => Success(text)
    case _ => Failure(Malformed(name))
  }

  /** `readBoolean(name)`. */
  function ReadBool(p: Portable, name: string): (r: Result<bool>)
    ensures r.Success? <==> FindField(p.fields, name).Some? && FindField(p.fields, name).value.BoolField?
    ensures r.Success? ==> r.value == FindField(p.fields, name).value.flag
    ensures r.Failure? ==> r.error == Malformed(name)
  {
    match FindField(p.fields, name)
    case Some(BoolField(_, flag)) => Success(flag)
    case _ => Failure(Malformed(name))
  }

  /** `readObject` on the raw stream at `pos`: the object and the position
      after it. */
  function ReadObject(raw: seq<RawItem>, pos: nat): (r: Result<(Predicate, nat)>)
    ensures r.Success? <==> pos < |raw| && raw[pos].ObjectItem?
    ensures r.Success? ==> r.value == (raw[pos].obj, pos + 1)
    ensures r.Failure? ==> r.error == Malformed("predicate")
  {
    if pos < |raw| && raw[pos].ObjectItem? then Success((raw[pos].obj, pos + 1))
    else Failure(Malformed("predicate"))
  }

  /** `Data.readData` on the raw stream at `pos`. */
  function ReadData(raw: seq<RawItem>, pos: nat): (r: Result<(Data, nat)>)
    ensures r.Success? <==> pos < |raw| && raw[pos].DataItem?
    ensures r.Success? ==> r.value == (raw[pos].data, pos + 1)
    ensures r.Failure? ==> r.error == Malformed("key")
  {
    if pos < |raw| && raw[pos].DataItem? then Success((raw[pos].data, pos + 1))
    else Failure(Malformed("key"))
  }

  /** `read` into the request `into`: the name and the value flag always,
      the predicate and the key only when their flags say they were
      written; a field whose flag is false keeps what `into` held. */
  function Read(into: Request, p: Portable): (r: Result<Request>)
    ensures r.Success? ==> ReadUtf(p, "name") == Success(r.value.name) && ReadBool(p, "i") == Success(r.value.includeValue)
    ensures r.Success? ==> ReadBool(p, "key").Success? && ReadBool(p, "pre").Success?
    ensures r.Success? && ReadBool(p, "key") == Success(false) ==> r.value.key == into.key
    ensures r.Success? && ReadBool(p, "pre") == Success(false) ==> r.value.entryPredicate == into.entryPredicate
    ensures r.Success? && ReadBool(p, "key") == Success(true) ==>
      var at := if ReadBool(p, "pre") == Success(true) then 1 else 0;
      r.value.key.Some? && at < |p.raw| && p.raw[at] == DataItem(r.value.key.value)
    ensures r.Success? <==>
      && ReadUtf(p, "name").Success? && ReadBool(p, "i").Success?
      && ReadBool(p, "key").Success? && ReadBool(p, "pre").Success?
      && (ReadBool(p, "pre").value ==> |p.raw| > 0 && p.raw[0].ObjectItem?)
      && (ReadBool(p, "key").value ==>
            var at := if ReadBool(p, "pre").value then 1 else 0;
            at < |p.raw| && p.raw[at].DataItem?)
    ensures r.Success? && ReadBool(p, "pre") == Success(true) ==>
      r.value.entryPredicate.Some? && |p.raw| > 0 && p.raw[0] == ObjectItem(r.value.entryPredicate.value)
    ensures r.Failure? ==> r.error.Malformed?
  {
    var name :- ReadUtf(p, "name");
    var includeValue :- ReadBool(p, "i");
    var hasKey :- ReadBool(p, "key");
    var pre :- ReadBool(p, "pre");
    if pre then
      var (entryPredicate, next) :- ReadObject(p.raw, 0);
      if hasKey then
        var (key, _) :- ReadData(p.raw, next);
        Success(Request(name, includeValue, Some(key), Some(entryPredicate)))
      else
        Success(Request(name, includeValue, into.key, Some(entryPredicate)))
    else if hasKey then
      var (key, _) :- ReadData(p.raw, 0);
      Success(Request(name, includeValue, Some(key), into.entryPredicate))
    else
      Success(Request(name, includeValue, into.key, into.entryPredicate))
  }

  /** The fields `Write` emits are found by name. */
  lemma WrittenFields(req: Request)
    ensures FindField(Write(req).fields, "name") == Some(UtfField("name", req.name))
    ensures FindField(Write(req).fields, "i") == Some(BoolField("i", req.includeValue))
    ensures FindField(Write(req).fields, "key") == Some(BoolField("key", req.key.Some?))
    ensures FindField(Write(req).fields, "pre") == Some(BoolField("pre", req.entryPredicate.Some?))
  {
    var f := Write(req).fields;
    assert f[1..][1..][1..] == [f[3]];
  }

  /** Reading what `write` wrote gives back the name, the value flag, and
      the key and predicate that were present; an absent one keeps the
      value of the request read into. */
  lemma ReadAfterWrite(into: Request, req: Request)
    ensures Read(into, Write(req)) == Success(Request(
      req.name, req.includeValue,
      if req.key.Some? then req.key else into.key,
      if req.entryPredicate.Some? then req.entryPredicate else into.entryPredicate))
  {
    WrittenFields(req);
    var raw := Write(req).raw;
    if req.entryPredicate.Some? {
      assert ReadObject(raw, 0) == Success((req.entryPredicate.value, 1));
      if req.key.Some? {
        assert ReadData(raw, 1) == Success((req.key.value, 2));
      }
    } else if req.key.Some? {
      assert ReadData(raw, 0) == Success((req.key.value, 1));
    }
  }

  /** Reading into a freshly constructed request restores the request
      exactly. */
  lemma ReadWriteRoundTrip(req: Request)
    ensures Read(NewRequest(), Write(req)) == Success(req)
  {
    ReadAfterWrite(NewRequest(), req);
  }

  /** The three narrower constructors are the four-argument one with the
      missing arguments null (false for the value flag), and every request
      is what the four-argument one builds from its fields. */
  lemma ConstructorsAgree(name: Option<string>, key: Option<Data>, includeValue: bool, req: Request)
    ensures NewRequest() == NewPredicateRequest(None, None, false, None)
    ensures NewMapRequest(name, includeValue) == NewPredicateRequest(name, None, includeValue, None)
    ensures NewKeyRequest(name, key, includeValue) == NewPredicateRequest(name, key, includeValue, None)
    ensures req == NewPredicateRequest(req.name, req.key, req.includeValue, req.entryPredicate)
  {
  }

  /** What the constructors build survives `write` followed by `read` into
      a new request; a request for every entry writes nothing to the raw
      stream, and one for a key writes only that key. */
  lemma ConstructedRequestsRoundTrip(name: Option<string>, key: Data, includeValue: bool, pred: Option<Predicate>)
    ensures Write(NewMapRequest(name, includeValue)).raw == []
    ensures Write(NewKeyRequest(name, Some(key), includeValue)).raw == [DataItem(key)]
    ensures Read(NewRequest(), Write(NewMapRequest(name, includeValue))) == Success(NewMapRequest(name, includeValue))
    ensures Read(NewRequest(), Write(NewKeyRequest(name, Some(key), includeValue)))
      == Success(NewKeyRequest(name, Some(key), includeValue))
    ensures Read(NewRequest(), Write(NewPredicateRequest(name, Some(key), includeValue, pred)))
      == Success(NewPredicateRequest(name, Some(key), includeValue, pred))
  {
    ReadWriteRoundTrip(NewMapRequest(name, includeValue));
    ReadWriteRoundTrip(NewKeyRequest(name, Some(key), includeValue));
    ReadWriteRoundTrip(NewPredicateRequest(name, Some(key), includeValue, pred));
  }

  /** Requests that are written the same are the same. */
  lemma WriteIsInjective(a: Request, b: Request)
    requires Write(a) == Write(b)
    ensures a == b
  {
    ReadWriteRoundTrip(a);
    ReadWriteRoundTrip(b);
  }

  /** With both flags false, `read` never looks at the raw stream. */
  lemma ReadWithoutFlagsIgnoresRaw(into: Request, fields: seq<Field>, raw1: seq<RawItem>, raw2: seq<RawItem>)
    requires FindField(fields, "key") == Some(BoolField("key", false))
    requires FindField(fields, "pre") == Some(BoolField("pre", false))
    ensures Read(into, Portable(fields, raw1)) == Read(into, Portable(fields, raw2))
    ensures Read(into, Portable(fields, raw1)).Success? ==>
      Read(into, Portable(fields, raw1)).value.key == into.key &&
      Read(into, Portable(fields, raw1)).value.entryPredicate == into.entryPredicate
  {
  }

  /** A flag that promises a key or a predicate the raw stream does not
      hold makes `read` fail instead of inventing one. */
  lemma ReadOfMissingRaw(into: Request, fields: seq<Field>)
    requires FindField(fields, "name").Some? && FindField(fields, "name").value.UtfField?
    requires FindField(fields, "i").Some? && FindField(fields, "i").value.BoolField?
    requires FindField(fields, "key").Some? && FindField(fields, "key").value.BoolField?
    requires FindField(fields, "pre").Some? && FindField(fields, "pre").value.BoolField?
    requires FindField(fields, "key").value.flag || FindField(fields, "pre").value.flag
    ensures Read(into, Portable(fields, [])).Failure?
  {
  }
}

=== FILE: multimap_proxy.dfy ===
/** The client-facing part of a distributed multimap (MultiMapProxySupport):
    building the operation for each verb, sending a key's operation to the
    partition that owns the key, and merging the per-partition answers of
    the verbs that ask every partition. The partition service, the
    invocation machinery and deserialization are the parameters of a
    `Node`. */
module MultiMapProxy {
  import opened Wrappers
  import opened SerialData

  /** Java's `int`. */
  newtype Int32 = x: int | -0x8000_0000 <= x < 0x8000_0000

  const TwoTo31: int := 0x8000_0000
  const TwoTo32: int := 0x1_0000_0000

  /** `MultiMapConfig.ValueCollectionType`. */
  datatype ValueCollectionType = SET | LIST

  /** The empty value collection `createNew` hands out. */
  datatype ValueCollection =
    | HashSetOf(elements: set<Data>)
    | LinkedListOf(items: seq<Data>)

  /** `createNew`: an empty `HashSet` for SET and an empty `LinkedList` for
      LIST. With no type configured, the `equals` call on null throws
      `NullPointerException`; the `IllegalArgumentException` after the two
      tests cannot be reached, as the enumeration has no other constant. */
  function CreateNew(configured: Option<ValueCollectionType>): (r: Result<ValueCollection>)
    ensures r.Success? <==> configured.Some?
    ensures configured == Some(SET) ==> r == Success(HashSetOf({}))
    ensures configured == Some(LIST) ==> r == Success(LinkedListOf([]))
    ensures r.Success? ==> Size(r.value) == 0
    ensures configured.None? ==> r == Failure(NullPointer)
  {
    match configured
    case None => Failure(NullPointer)
    case Some(SET) => Success(HashSetOf({}))
    case Some(LIST) => Success(LinkedListOf([]))
  }

  /** `Collection.add` on the collection `createNew` returns, with the
      flag `add` returns. */
  function Add(c: ValueCollection, v: Data): (r: (ValueCollection, bool))
    ensures r.0.HashSetOf? == c.HashSetOf?
    ensures v in Elements(r.0) && Elements(r.0) == Elements(c) + {v}
    ensures r.1 <==> c.LinkedListOf? || v !in Elements(c)
    ensures Size(r.0) == Size(c) + (if r.1 then 1 else 0)
  {
    match c
    case HashSetOf(s) =>
      assert v in s ==> s + {v} == s;
      (HashSetOf(s + {v}), v !in s)
    case LinkedListOf(xs) => (LinkedListOf(xs + [v]), true)
  }

  /** The values a collection holds. */
  function Elements(c: ValueCollection): set<Data> {
    match c
    case HashSetOf(s) => s
    case LinkedListOf(xs) => set x | x in xs
  }

  /** `Collection.size`. */
  function Size(c: ValueCollection): nat {
    match c
    case HashSetOf(s) => |s|
    case LinkedListOf(xs) => |xs|
  }

  /** `c` after adding each of `vs` in turn. */
  function AddEach(c: ValueCollection, vs: seq<Data>): ValueCollection
    decreases |vs|
  {
    if |vs| == 0 then c else Add(AddEach(c, vs[..|vs| - 1]), vs[|vs| - 1]).0
  }

  /** The values of `vs`, as a set. */
  function SetOf(vs: seq<Data>): set<Data> {
    set v | v in vs
  }

  /** Adding values to a set collection gives the set of them all. */
  lemma {:induction false} AddEachToSet(s: set<Data>, vs: seq<Data>)
    ensures AddEach(HashSetOf(s), vs) == HashSetOf(s + SetOf(vs))
    decreases |vs|
  {
    if |vs| > 0 {
      var init := vs[..|vs| - 1];
      AddEachToSet(s, init);
      SetOfSnoc(vs, init);
    }
  }

  lemma SetOfSnoc(vs: seq<Data>, init: seq<Data>)
    requires |vs| > 0 && init == vs[..|vs| - 1]
    ensures SetOf(vs) == SetOf(init) + {vs[|vs| - 1]}
  {
    assert vs == init + [vs[|vs| - 1]];
  }

  /** Adding values to a list collection appends them in order. */
  lemma {:induction false} AddEachToList(xs: seq<Data>, vs: seq<Data>)
    ensures AddEach(LinkedListOf(xs), vs) == LinkedListOf(xs + vs)
    decreases |vs|
  {
    if |vs| > 0 {
      var init := vs[..|vs| - 1];
      AddEachToList(xs, init);
      assert xs + vs == (xs + init) + [vs[|vs| - 1]];
    }
  }

  /** A collection from `createNew` that has been given `vs` holds, for SET,
      each distinct value once, and for LIST every value in the order added,
      duplicates included. */
  lemma NewCollectionHolds(t: ValueCollectionType, vs: seq<Data>)
    ensures var c := AddEach(CreateNew(Some(t)).value, vs);
            && Elements(c) == SetOf(vs)
            && (t == SET ==> Size(c) == |SetOf(vs)|)
            && (t == LIST ==> c.LinkedListOf? && c.items == vs && Size(c) == |vs|)
  {
    if t == SET {
      AddEachToSet({}, vs);
      assert {} + SetOf(vs) == SetOf(vs);
    } else {
      AddEachToList([], vs);
      assert [] + vs == vs;
    }
  }

  /** `CollectionProxyId`, of which the proxy uses the name. */
  datatype ProxyId = ProxyId(name: string)

  /** The service every operation of the proxy is addressed to
      (`CollectionService.SERVICE_NAME`). */
  datatype ServiceName = CollectionService

  /** `getName`: the name in the proxy id. */
  function GetName(proxyId: ProxyId): string
  {
    proxyId.name
  }

  /** `getServiceName`: the same service for every proxy. */
  function GetServiceName(proxyId: ProxyId): ServiceName
  {
    CollectionService
  }

  /** What each protected verb of the proxy asks for, without the proxy id,
      the key and the thread id the proxy adds. */
  datatype Request =
    | Put(value: Data, index: int)                         // putInternal
    | GetAll                                               // getAllInternal
    | Remove(value: Data)                                  // removeInternal(key, value)
    | RemoveAll                                            // removeInternal(key)
    | Count                                                // countInternal
    | Get(index: int)                                      // getInternal
    | Contains(value: Data)                                // containsInternalList
    | ContainsAll(dataSet: set<Data>)                      // containsAllInternal
    | Set(index: int, value: Data)                         // setInternal
    | RemoveIndex(index: int)                              // removeInternal(key, index)
    | IndexOf(value: Data, last: bool)                     // indexOfInternal
    | AddAll(values: seq<Data>, index: int)                // addAllInternal
    | CompareAndRemove(values: seq<Data>, retain: bool)    // compareAndRemoveInternal

  /** The requests that change the entries of a key. */
  predicate Writes(req: Request) {
    req.Put? || req.Remove? || req.RemoveAll? || req.Set? || req.RemoveIndex? || req.AddAll? || req.CompareAndRemove?
  }

  /** The operation objects, with the arguments of their constructors. */
  datatype Operation =
    | PutOperation(proxyId: ProxyId, key: Data, threadId: int, value: Data, index: int)
    | GetAllOperation(proxyId: ProxyId, key: Data)
    | RemoveOperation(proxyId: ProxyId, key: Data, threadId: int, value: Data)
    | RemoveAllOperation(proxyId: ProxyId, key: Data, threadId: int)
    | CountOperation(proxyId: ProxyId, key: Data)
    | GetOperation(proxyId: ProxyId, key: Data, index: int)
    | ContainsOperation(proxyId: ProxyId, key: Data, value: Data)
    | ContainsAllOperation(proxyId: ProxyId, key: Data, dataSet: set<Data>)
    | SetOperation(proxyId: ProxyId, key: Data, threadId: int, index: int, value: Data)
    | RemoveIndexOperation(proxyId: ProxyId, key: Data, threadId: int, index: int)
    | IndexOfOperation(proxyId: ProxyId, key: Data, value: Data, last: bool)
    | AddAllOperation(proxyId: ProxyId, key: Data, threadId: int, values: seq<Data>, index: int)
    | CompareAndRemoveOperation(proxyId: ProxyId, key: Data, threadId: int, values: seq<Data>, retain: bool)
    | KeySetOperation(proxyId: ProxyId)
    | ValuesOperation(proxyId: ProxyId)
    | EntrySetOperation(proxyId: ProxyId)
    | ContainsEntryOperation(proxyId: ProxyId, key: Data, value: Data)
    | SizeOperation(proxyId: ProxyId)
    | ClearOperation(proxyId: ProxyId)

  /** The thread id an operation carries, if its constructor takes one. */
  function ThreadOf(op: Operation): Option<int> {
    match op
    case PutOperation(_, _, t, _, _) => Some(t)
    case RemoveOperation(_, _, t, _) => Some(t)
    case RemoveAllOperation(_, _, t) => Some(t)
    case SetOperation(_, _, t, _, _) => Some(t)
    case RemoveIndexOperation(_, _, t, _) => Some(t)
    case AddAllOperation(_, _, t, _, _) => Some(t)
    case CompareAndRemoveOperation(_, _, t, _, _) => Some(t)
    case _ => None
  }

  /** The request a key-scoped operation answers, or None for the
      operations sent to every partition. */
  function RequestOf(op: Operation): Option<Request> {
    match op
    case PutOperation(_, _, _, v, i) => Some(Put(v, i))
    case GetAllOperation(_, _) => Some(GetAll)
    case RemoveOperation(_, _, _, v) => Some(Remove(v))
    case RemoveAllOperation(_, _, _) => Some(RemoveAll)
    case CountOperation(_, _) => Some(Count)
    case GetOperation(_, _, i) => Some(Get(i))
    case ContainsOperation(_, _, v) => Some(Contains(v))
    case ContainsAllOperation(_, _, vs) => Some(ContainsAll(vs))
    case SetOperation(_, _, _, i, v) => Some(Set(i, v))
    case RemoveIndexOperation(_, _, _, i) => Some(RemoveIndex(i))
    case IndexOfOperation(_, _, v, l) => Some(IndexOf(v, l))
    case AddAllOperation(_, _, _, vs, i) => Some(AddAll(vs, i))
    case CompareAndRemoveOperation(_, _, _, vs, r) => Some(CompareAndRemove(vs, r))
    case _ => None
  }

  /** The operation each `*Internal` verb constructs; only the verbs that
      change entries pass `getThreadId()`. */
  function OperationFor(proxyId: ProxyId, key: Data, thread: int, req: Request): (op: Operation)
    ensures RequestOf(op) == Some(req)
    ensures op.proxyId == proxyId && !op.KeySetOperation? && !op.ValuesOperation? && !op.EntrySetOperation? &&
            !op.SizeOperation? && !op.ClearOperation? && op.key == key
    ensures ThreadOf(op) == (if Writes(req) then Some(thread) else None)
  {
    match req
    case Put(v, i) => PutOperation(proxyId, key, thread, v, i)
    case GetAll => GetAllOperation(proxyId, key)
    case Remove(v) => RemoveOperation(proxyId, key, thread, v)
    case RemoveAll => RemoveAllOperation(proxyId, key, thread)
    case Count => CountOperation(proxyId, key)
    case Get(i) => GetOperation(proxyId, key, i)
    case Contains(v) => ContainsOperation(proxyId, key, v)
    case ContainsAll(vs) => ContainsAllOperation(proxyId, key, vs)
    case Set(i, v) => SetOperation(proxyId, key, thread, i, v)
    case RemoveIndex(i) => RemoveIndexOperation(proxyId, key, thread, i)
    case IndexOf(v, l) => IndexOfOperation(proxyId, key, v, l)
    case AddAll(vs, i) => AddAllOperation(proxyId, key, thread, vs, i)
    case CompareAndRemove(vs, r) => CompareAndRemoveOperation(proxyId, key, thread, vs, r)
  }

  /** Of the verbs that read or edit a key's values by position or in bulk,
      the counting, reading and searching ones send no thread id and the
      editing ones send the caller's. */
  lemma ListVerbThreads(proxyId: ProxyId, key: Data, thread: int, v: Data, i: int, vs: seq<Data>, ds: set<Data>, flag: bool)
    ensures ThreadOf(OperationFor(proxyId, key, thread, Count)) == None
    ensures ThreadOf(OperationFor(proxyId, key, thread, Get(i))) == None
    ensures ThreadOf(OperationFor(proxyId, key, thread, Contains(v))) == None
    ensures ThreadOf(OperationFor(proxyId, key, thread, ContainsAll(ds))) == None
    ensures ThreadOf(OperationFor(proxyId, key, thread, IndexOf(v, flag))) == None
    ensures ThreadOf(OperationFor(proxyId, key, thread, Set(i, v))) == Some(thread)
    ensures ThreadOf(OperationFor(proxyId, key, thread, RemoveIndex(i))) == Some(thread)
    ensures ThreadOf(OperationFor(proxyId, key, thread, AddAll(vs, i))) == Some(thread)
    ensures ThreadOf(OperationFor(proxyId, key, thread, CompareAndRemove(vs, flag))) == Some(thread)
  {
  }

  /** Two verbs build the same operation only for the same proxy, key and
      request; the thread id is the only thing besides them that an
      operation records. */
  lemma OperationForInjective(p1: ProxyId, k1: Data, t1: int, r1: Request, p2: ProxyId, k2: Data, t2: int, r2: Request)
    requires OperationFor(p1, k1, t1, r1) == OperationFor(p2, k2, t2, r2)
    ensures p1 == p2 && k1 == k2 && r1 == r2
    ensures Writes(r1) ==> t1 == t2
  {
    assert RequestOf(OperationFor(p1, k1, t1, r1)) == Some(r1);
    assert ThreadOf(OperationFor(p1, k1, t1, r1)) == ThreadOf(OperationFor(p2, k2, t2, r2));
  }

  /** A deserialized answer: null, a `Boolean`, an `Integer`, a
      `CollectionResponse`, or any other object. */
  datatype Response =
    | Null
    | Flag(b: bool)
    | Number(n: Int32)
    | CollectionResponse(items: seq<Data>)
    | Object(payload: Data)

  /** An invocation built for one partition. */
  datatype Invocation = Invocation(service: ServiceName, op: Operation, partitionId: int)

  /** The answers of an operation sent to every partition: the entries of
      the result map, partition id and answer, in the order the map
      iterates them, which is unspecified. */
  type Answers = seq<(int, Response)>

  /** What the proxy uses of the node it runs on: the partition of a key,
      the answer to one invocation (invoking, waiting on the future and
      deserializing), and the answers to an operation sent to every
      partition. A fault anywhere in a call is its `Failure`. */
  datatype Node = Node(
    partitionOf: Data -> int,
    invoke: Invocation -> Result<Response>,
    invokeOnAllPartitions: (ServiceName, Operation) -> Result<Answers>)

  /** The invocation `invoke`/`invokeData` build for a key. */
  function Route(node: Node, op: Operation, key: Data): (inv: Invocation)
    ensures inv.partitionId == node.partitionOf(key)
    ensures inv.service == GetServiceName(op.proxyId) && inv.op == op
  {
    Invocation(CollectionService, op, node.partitionOf(key))
  }

  /** Every key-scoped verb: build its operation, send it to the key's
      partition, and return the answer or rethrow the fault. What comes
      back is the node's answer to one invocation: on the key's partition,
      for the proxy's collection service, carrying the proxy id, the key,
      the request, and the thread id exactly when the verb writes. */
  function KeyedInternal(node: Node, proxyId: ProxyId, thread: int, key: Data, req: Request): (r: Result<Response>)
    ensures exists inv: Invocation ::
      && inv.partitionId == node.partitionOf(key)
      && inv.service == GetServiceName(proxyId)
      && RequestOf(inv.op) == Some(req)
      && inv.op.proxyId == proxyId && inv.op.key == key
      && ThreadOf(inv.op) == (if Writes(req) then Some(thread) else None)
      && r == node.invoke(inv)
  {
    var inv := Route(node, OperationFor(proxyId, key, thread, req), key);
    node.invoke(inv)
  }

  /** A key-scoped verb depends on one partition only: two nodes that
      agree on the key's partition and on the answer of that one
      invocation give the same result, whatever the other partitions
      hold. */
  lemma KeyedTouchesOnePartition(n1: Node, n2: Node, proxyId: ProxyId, thread: int, key: Data, req: Request)
    requires n1.partitionOf(key) == n2.partitionOf(key)
    requires var op := OperationFor(proxyId, key, thread, req);
             n1.invoke(Invocation(CollectionService, op, n1.partitionOf(key))) ==
             n2.invoke(Invocation(CollectionService, op, n1.partitionOf(key)))
    ensures KeyedInternal(n1, proxyId, thread, key, req) == KeyedInternal(n2, proxyId, thread, key, req)
  {
  }

  /** Verbs on the same key go to the same partition, whatever they ask. */
  lemma SameKeySamePartition(node: Node, proxyId: ProxyId, key: Data, t1: int, r1: Request, t2: int, r2: Request)
    ensures Route(node, OperationFor(proxyId, key, t1, r1), key).partitionId ==
            Route(node, OperationFor(proxyId, key, t2, r2), key).partitionId
  {
  }

  // ---- verbs sent to every partition ----

  /** The answers to `op` sent by `invokeOnAllPartitions`, or the fault
      that replaced them. */
  function AllPartitions(node: Node, op: Operation): Result<Answers> {
    node.invokeOnAllPartitions(CollectionService, op)
  }

  /** `results.values()`: the answers without their partition ids, in
      the same order. */
  function ValuesOf(entries: Answers): (r: seq<Response>)
    ensures |r| == |entries|
    ensures forall i :: 0 <= i < |r| ==> r[i] == entries[i].1
  {
    seq(|entries|, i requires 0 <= i < |entries| => entries[i].1)
  }

  /** `valuesInternal`: the answers of every partition, unmerged. */
  function ValuesInternal(node: Node, proxyId: ProxyId): Result<Answers>
  {
    AllPartitions(node, ValuesOperation(proxyId))
  }

  /** `entrySetInternal`: the answers of every partition, unmerged. */
  function EntrySetInternal(node: Node, proxyId: ProxyId): Result<Answers>
  {
    AllPartitions(node, EntrySetOperation(proxyId))
  }

  /** `clear`: the answers are dropped; only a fault comes back. */
  function Clear(node: Node, proxyId: ProxyId): (r: Result<()>)
    ensures r.Success? <==> AllPartitions(node, ClearOperation(proxyId)).Success?
    ensures r.Failure? ==> r.error == AllPartitions(node, ClearOperation(proxyId)).error
  {
    var _ :- AllPartitions(node, ClearOperation(proxyId));
    Success(())
  }

  /** What `clear` returns does not depend on the answers: two nodes whose
      fan-outs both succeed, with whatever answers, or both fail with the
      same fault, give the same result. */
  lemma ClearIgnoresAnswers(n1: Node, n2: Node, proxyId: ProxyId)
    requires AllPartitions(n1, ClearOperation(proxyId)).Success? == AllPartitions(n2, ClearOperation(proxyId)).Success?
    requires AllPartitions(n1, ClearOperation(proxyId)).Failure? ==>
      AllPartitions(n1, ClearOperation(proxyId)).error == AllPartitions(n2, ClearOperation(proxyId)).error
    ensures Clear(n1, proxyId) == Clear(n2, proxyId)
  {
  }

  /** The keys the answers to `keySetInternal` hold: every element of
      every non-null `CollectionResponse`. */
  function KeysOf(answers: seq<Response>): set<Data> {
    set x, d | x in answers && x.CollectionResponse? && d in x.items :: d
  }

  /** The elements one answer adds to the key set. */
  function KeysOfAnswer(x: Response): set<Data> {
    if x.CollectionResponse? then set d | d in x.items else {}
  }

  lemma KeysOfSnoc(a: seq<Response>, x: Response)
    ensures KeysOf(a + [x]) == KeysOf(a) + KeysOfAnswer(x)
  {
  }

  /** The key set does not depend on the order the answers arrive in. */
  lemma KeysOfOrder(a: seq<Response>, b: seq<Response>)
    requires multiset(a) == multiset(b)
    ensures KeysOf(a) == KeysOf(b)
  {
    assert forall x :: x in a <==> x in b by {
      forall x ensures x in a <==> x in b {
        assert x in a <==> x in multiset(a);
        assert x in b <==> x in multiset(b);
      }
    }
  }

  /** An answer `keySetInternal` can cast to `CollectionResponse`. */
  predicate IsKeySetAnswer(x: Response) {
    x.Null? || x.CollectionResponse?
  }

  /** The loop of `keySetInternal`: skip null answers, cast the others to
      `CollectionResponse` and add their elements to one set. */
  method MergeKeySet(answers: seq<Response>) returns (r: Result<set<Data>>)
    ensures r.Success? <==> forall i :: 0 <= i < |answers| ==> IsKeySetAnswer(answers[i])
    ensures r.Success? ==> r.value == KeysOf(answers)
    ensures r.Failure? ==> r.error == ClassCast("CollectionResponse")
  {
    var keys: set<Data> := {};
    for i := 0 to |answers|
      invariant forall j :: 0 <= j < i ==> IsKeySetAnswer(answers[j])
      invariant keys == KeysOf(answers[..i])
    {
      var x := answers[i];
      if !IsKeySetAnswer(x) {
        return Failure(ClassCast("CollectionResponse"));
      }
      KeysOfSnoc(answers[..i], x);
      assert answers[..i + 1] == answers[..i] + [x];
      keys := keys + KeysOfAnswer(x);
    }
    assert answers[..|answers|] == answers;
    r := Success(keys);
  }

  /** `keySetInternal`: a fault of the fan-out is rethrown; otherwise the
      call succeeds exactly when every answer is null or a
      `CollectionResponse`, with the union of their elements, and fails
      with the cast's fault when one is not. */
  method KeySetInternal(node: Node, proxyId: ProxyId) returns (r: Result<set<Data>>)
    ensures AllPartitions(node, KeySetOperation(proxyId)).Failure? ==>
      r == Failure(AllPartitions(node, KeySetOperation(proxyId)).error)
    ensures AllPartitions(node, KeySetOperation(proxyId)).Success? ==>
      var answers := ValuesOf(AllPartitions(node, KeySetOperation(proxyId)).value);
      && (r.Success? <==> forall i :: 0 <= i < |answers| ==> IsKeySetAnswer(answers[i]))
      && (r.Failure? ==> r.error == ClassCast("CollectionResponse"))
    ensures r.Success? ==> r.value == KeysOf(ValuesOf(AllPartitions(node, KeySetOperation(proxyId)).value))
  {
    var answers := AllPartitions(node, KeySetOperation(proxyId));
    if answers.Failure? {
      return Failure(answers.error);
    }
    r := MergeKeySet(ValuesOf(answers.value));
  }

  /** An answer `containsInternal` can cast to `Boolean`. */
  predicate IsFlagAnswer(x: Response) {
    x.Null? || x.Flag?
  }

  /** Some answer that is not null or a `Boolean` comes before every
      answer that is true: the cast of `containsInternal` fails on it
      before the loop can return. */
  predicate CastFailsFirst(answers: seq<Response>) {
    exists i :: 0 <= i < |answers| && !IsFlagAnswer(answers[i])
      && forall j :: 0 <= j < i ==> answers[j] != Flag(true)
  }

  /** The loop of `containsInternal`: skip null answers and return true at
      the first answer that is true. With only null and `Boolean` answers,
      stopping early gives the same answer as looking at all of them. With
      answers of other types the order matters: whichever comes first, a
      true or an answer of another type, decides. */
  method MergeContains(answers: seq<Response>) returns (r: Result<bool>)
    ensures (forall i :: 0 <= i < |answers| ==> IsFlagAnswer(answers[i])) ==> r.Success?
    ensures r.Failure? <==> CastFailsFirst(answers)
    ensures r.Success? ==> (r.value <==> Flag(true) in answers)
    ensures r.Failure? ==> r.error == ClassCast("Boolean")
  {
    for i := 0 to |answers|
      invariant forall j :: 0 <= j < i ==> answers[j] == Null || answers[j] == Flag(false)
    {
      var x := answers[i];
      if !IsFlagAnswer(x) {
        return Failure(ClassCast("Boolean"));
      }
      if x == Flag(true) {
        TrueComesFirst(answers, i);
        return Success(true);
      }
    }
    r := Success(false);
  }

  /** A true at `i` with only null or false answers before it: no answer
      of another type comes before every true. */
  lemma TrueComesFirst(answers: seq<Response>, i: nat)
    requires i < |answers| && answers[i] == Flag(true)
    requires forall j :: 0 <= j < i ==> answers[j] == Null || answers[j] == Flag(false)
    ensures !CastFailsFirst(answers)
  {
    forall k | 0 <= k < |answers| && !IsFlagAnswer(answers[k])
      ensures exists j :: 0 <= j < k && answers[j] == Flag(true)
    {
      assert i < k;
    }
  }

  /** The order of mixed answers decides `containsInternal`: a true before
      an answer of another type gives true, the other way round the cast
      fails. */
  lemma ContainsOrderMatters(d: Data)
    ensures !CastFailsFirst([Flag(true), Object(d)])
    ensures CastFailsFirst([Object(d), Flag(true)])
  {
    TrueComesFirst([Flag(true), Object(d)], 0);
    assert !IsFlagAnswer([Object(d), Flag(true)][0]);
  }

  /** `containsInternal`: a fault of the fan-out is rethrown; otherwise the
      cast fails exactly when an answer that is neither null nor a
      `Boolean` comes before every true one, and the call otherwise says
      whether some partition answered true. */
  method ContainsInternal(node: Node, proxyId: ProxyId, key: Data, value: Data) returns (r: Result<bool>)
    ensures AllPartitions(node, ContainsEntryOperation(proxyId, key, value)).Failure? ==>
      r == Failure(AllPartitions(node, ContainsEntryOperation(proxyId, key, value)).error)
    ensures AllPartitions(node, ContainsEntryOperation(proxyId, key, value)).Success? ==>
      var answers := ValuesOf(AllPartitions(node, ContainsEntryOperation(proxyId, key, value)).value);
      && (r.Failure? <==> CastFailsFirst(answers))
      && (r.Failure? ==> r.error == ClassCast("Boolean"))
    ensures r.Success? ==> (r.value <==> Flag(true) in ValuesOf(AllPartitions(node, ContainsEntryOperation(proxyId, key, value)).value))
  {
    var answers := AllPartitions(node, ContainsEntryOperation(proxyId, key, value));
    if answers.Failure? {
      return Failure(answers.error);
    }
    r := MergeContains(ValuesOf(answers.value));
  }

  /** Java `int` addition: the exact value reduced into the 32-bit range. */
  function Wrap32(x: int): (r: int)
    ensures -TwoTo31 <= r < TwoTo31
    ensures -TwoTo31 <= x < TwoTo31 ==> r == x
  {
    (x + TwoTo31) % TwoTo32 - TwoTo31
  }

  /** Adding a multiple of 2^32 leaves the remainder unchanged. */
  lemma {:induction false} ModShift(z: int, q: int)
    ensures (z + q * TwoTo32) % TwoTo32 == z % TwoTo32
    decreases if q < 0 then -q else q
  {
    if q > 0 {
      ModShift(z, q - 1);
      assert z + q * TwoTo32 == (z + (q - 1) * TwoTo32) + TwoTo32;
    } else if q < 0 {
      ModShift(z, q + 1);
      assert z + q * TwoTo32 == (z + (q + 1) * TwoTo32) - TwoTo32;
    }
  }

  /** Reducing an intermediate sum does not change the reduced total. */
  lemma WrapAdd(a: int, b: int)
    ensures Wrap32(Wrap32(a) + b) == Wrap32(a + b)
  {
    var q := (a + TwoTo31) / TwoTo32;
    assert a + TwoTo31 == q * TwoTo32 + (a + TwoTo31) % TwoTo32;
    assert Wrap32(a) + b + TwoTo31 + q * TwoTo32 == a + b + TwoTo31;
    ModShift(Wrap32(a) + b + TwoTo31, q);
  }

  /** The count one answer adds to `size`. */
  function CountOf(x: Response): int {
    if x.Number? then x.n as int else 0
  }

  /** The exact sum of the counts of the non-null answers. */
  function CountSum(answers: seq<Response>): int {
    if |answers| == 0 then 0 else CountSum(answers[..|answers| - 1]) + CountOf(answers[|answers| - 1])
  }

  lemma {:induction false} CountSumAppend(a: seq<Response>, b: seq<Response>)
    ensures CountSum(a + b) == CountSum(a) + CountSum(b)
    decreases |b|
  {
    if |b| == 0 {
      assert a + b == a;
    } else {
      assert (a + b)[..|a + b| - 1] == a + b[..|b| - 1];
      CountSumAppend(a, b[..|b| - 1]);
    }
  }

  lemma CountSumRemoveAt(b: seq<Response>, j: nat)
    requires j < |b|
    ensures CountSum(b) == CountSum(b[..j] + b[j + 1..]) + CountOf(b[j])
  {
    var pre, x, post := b[..j], b[j], b[j + 1..];
    calc {
      CountSum(b);
      { SplitAt(b, j); }
      CountSum(pre + ([x] + post));
      { CountSumAppend(pre, [x] + post); }
      CountSum(pre) + CountSum([x] + post);
      { CountSumAppend([x], post); CountSumOne(x); }
      CountSum(pre) + CountOf(x) + CountSum(post);
      { CountSumAppend(pre, post); }
      CountSum(pre + post) + CountOf(x);
    }
  }

  lemma SplitAt(b: seq<Response>, j: nat)
    requires j < |b|
    ensures b == b[..j] + ([b[j]] + b[j + 1..])
  {
    assert b[..j + 1] == b[..j] + [b[j]];
    assert b == b[..j + 1] + b[j + 1..];
  }

  lemma CountSumOne(x: Response)
    ensures CountSum([x]) == CountOf(x)
  {
    assert [x][..0] == [];
  }

  /** The multiset of `b` without the answer at `j`. */
  lemma MultisetRemoveAt(b: seq<Response>, j: nat)
    requires j < |b|
    ensures multiset(b) == multiset(b[..j] + b[j + 1..]) + multiset{b[j]}
  {
    SplitAt(b, j);
  }

  /** The exact total does not depend on the order the answers arrive in. */
  lemma {:induction false} CountSumOrder(a: seq<Response>, b: seq<Response>)
    requires multiset(a) == multiset(b)
    ensures CountSum(a) == CountSum(b)
    decreases |a|
  {
    if |a| == 0 {
      assert |multiset(b)| == 0;
    } else {
      var j := MatchLast(a, b);
      CountSumOrder(a[..|a| - 1], b[..j] + b[j + 1..]);
      CountSumOrderStep(a, b, j);
    }
  }

  /** Where the last answer of `a` sits in `b`, and what is left of both
      without it. */
  lemma MatchLast(a: seq<Response>, b: seq<Response>) returns (j: nat)
    requires |a| > 0 && multiset(a) == multiset(b)
    ensures j < |b| && b[j] == a[|a| - 1]
    ensures multiset(a[..|a| - 1]) == multiset(b[..j] + b[j + 1..])
  {
    var x := a[|a| - 1];
    MultisetOfLast(a);
    assert x in multiset(b);
    j :| 0 <= j < |b| && b[j] == x;
    MultisetRemoveAt(b, j);
    assert multiset(a[..|a| - 1]) == multiset(a) - multiset{x};
  }

  lemma MultisetOfLast(a: seq<Response>)
    requires |a| > 0
    ensures multiset(a) == multiset(a[..|a| - 1]) + multiset{a[|a| - 1]}
  {
    assert a == a[..|a| - 1] + [a[|a| - 1]];
  }

  lemma CountSumOrderStep(a: seq<Response>, b: seq<Response>, j: nat)
    requires |a| > 0 && j < |b| && b[j] == a[|a| - 1]
    requires CountSum(a[..|a| - 1]) == CountSum(b[..j] + b[j + 1..])
    ensures CountSum(a) == CountSum(b)
  {
    CountSumRemoveAt(b, j);
  }

  /** With every answer null, the total is zero. */
  lemma {:induction false} CountSumOfNulls(a: seq<Response>)
    requires forall i :: 0 <= i < |a| ==> a[i] == Null
    ensures CountSum(a) == 0
  {
    if |a| > 0 {
      CountSumOfNulls(a[..|a| - 1]);
    }
  }

  /** An answer `size` can unbox to `Integer`. */
  predicate IsCountAnswer(x: Response) {
    x.Null? || x.Number?
  }

  /** The loop of `size`: skip null answers and add the others into an
      `int`, which wraps around. */
  method MergeSize(answers: seq<Response>) returns (r: Result<Int32>)
    ensures r.Success? <==> forall i :: 0 <= i < |answers| ==> IsCountAnswer(answers[i])
    ensures r.Success? ==> r.value as int == Wrap32(CountSum(answers))
    ensures r.Failure? ==> r.error == ClassCast("Integer")
  {
    var size: Int32 := 0;
    for i := 0 to |answers|
      invariant forall j :: 0 <= j < i ==> IsCountAnswer(answers[j])
      invariant size as int == Wrap32(CountSum(answers[..i]))
    {
      var x := answers[i];
      if !IsCountAnswer(x) {
        return Failure(ClassCast("Integer"));
      }
      assert answers[..i + 1][..i] == answers[..i];
      WrapAdd(CountSum(answers[..i]), CountOf(x));
      size := Wrap32(size as int + CountOf(x)) as Int32;
    }
    assert answers[..|answers|] == answers;
    r := Success(size);
  }

  /** `size`: a fault of the fan-out is rethrown; otherwise the call
      succeeds exactly when every answer is null or an `Integer`, with the
      wrapped sum of the counts, and fails with the cast's fault when one
      is not. */
  method SizeInternal(node: Node, proxyId: ProxyId) returns (r: Result<Int32>)
    ensures AllPartitions(node, SizeOperation(proxyId)).Failure? ==>
      r == Failure(AllPartitions(node, SizeOperation(proxyId)).error)
    ensures AllPartitions(node, SizeOperation(proxyId)).Success? ==>
      var answers := ValuesOf(AllPartitions(node, SizeOperation(proxyId)).value);
      && (r.Success? <==> forall i :: 0 <= i < |answers| ==> IsCountAnswer(answers[i]))
      && (r.Failure? ==> r.error == ClassCast("Integer"))
    ensures r.Success? ==> r.value as int == Wrap32(CountSum(ValuesOf(AllPartitions(node, SizeOperation(proxyId)).value)))
  {
    var answers := AllPartitions(node, SizeOperation(proxyId));
    if answers.Failure? {
      return Failure(answers.error);
    }
    r := MergeSize(ValuesOf(answers.value));
  }

  /** What `size` reports: zero when every answer is null, the exact total
      when it fits an `int`, and the same value whatever order the answers
      arrive in. */
  lemma SizeOfCounts(a: seq<Response>, b: seq<Response>)
    requires multiset(a) == multiset(b)
    ensures (forall i :: 0 <= i < |a| ==> a[i] == Null) ==> Wrap32(CountSum(a)) == 0
    ensures 0 <= CountSum(a) < TwoTo31 ==> Wrap32(CountSum(a)) == CountSum(a)
    ensures Wrap32(CountSum(a)) == Wrap32(CountSum(b))
  {
    if forall i :: 0 <= i < |a| ==> a[i] == Null {
      CountSumOfNulls(a);
    }
    CountSumOrder(a, b);
  }
}

=== FILE: query_between.dfy ===
/** Folding `between x and y` into one `between` operator followed by its
    two bounds (Parser.buildTokens). */
module QueryBetween {
  import opened Wrappers
  import opened QueryText
  import opened QueryTokens

  /** The placeholder a folded `between` carries until the loop ends. */
  const BetweenAnd: string := "betweenAnd"

  /** `"between".equalsIgnoreCase(t)`. */
  predicate IsBetween(t: string) {
    EqualsIgnoreCase("between", t)
  }

  /** Index of the first token equal to `between` ignoring case, or |ts|. */
  function FirstBetween(ts: seq<string>): (i: nat)
    ensures i <= |ts|
    ensures i < |ts| ==> IsBetween(ts[i])
  {
    if |ts| == 0 then 0
    else if IsBetween(ts[0]) then 0
    else 1 + FirstBetween(ts[1..])
  }

  /** No token before `FirstBetween(ts)` is `between`. */
  lemma {:induction false} FirstBetweenIsFirst(ts: seq<string>)
    ensures forall j :: 0 <= j < FirstBetween(ts) ==> !IsBetween(ts[j])
    decreases |ts|
  {
    if |ts| > 0 && !IsBetween(ts[0]) {
      FirstBetweenIsFirst(ts[1..]);
      assert forall j :: 1 <= j < FirstBetween(ts) ==> ts[j] == ts[1..][j - 1];
    }
  }

  /** No token of `ts` is `between` in any case. */
  ghost predicate NoBetween(ts: seq<string>) {
    forall j :: 0 <= j < |ts| ==> !IsBetween(ts[j])
  }

  lemma PlaceholderIsNotBetween()
    ensures !IsBetween(BetweenAnd)
  {
  }

  /** The labelled loop of `buildTokens`: find the first `between`, mark it,
      remove the token two places after it (the `and`), and start again.
      `List.remove` past the end throws. */
  function FoldBetweens(ts: seq<string>): (r: Result<seq<string>>)
    ensures r.Failure? ==> r.error == IndexOutOfBounds
    ensures r.Success? ==> |r.value| <= |ts|
    decreases |ts|
  {
    var i := FirstBetween(ts);
    if i == |ts| then Success(ts)
    else
      var next :- RemoveAt(ts[i := BetweenAnd], i + 2);
      FoldBetweens(next)
  }

  /** `List.remove(j)`, which throws past the end. */
  function RemoveAt(ts: seq<string>, j: nat): (r: Result<seq<string>>)
    ensures r.Success? <==> j < |ts|
    ensures r.Success? ==> |r.value| == |ts| - 1
    ensures r.Success? ==> forall k :: 0 <= k < j ==> r.value[k] == ts[k]
    ensures r.Success? ==> forall k :: j <= k < |r.value| ==> r.value[k] == ts[k + 1]
    ensures r.Failure? ==> r.error == IndexOutOfBounds
  {
    if j < |ts| then Success(ts[..j] + ts[j + 1..]) else Failure(IndexOutOfBounds)
  }

  /** A single left-to-right pass: a `between` keeps the token after it as
      its lower bound, drops the next one, and the pass goes on at the
      lower bound. */
  function ScanBetweens(ts: seq<string>): (r: Result<seq<string>>)
    decreases |ts|
    ensures r.Failure? ==> r.error == IndexOutOfBounds
    ensures r.Success? ==> |r.value| <= |ts|
  {
    if |ts| == 0 then Success([])
    else if !IsBetween(ts[0]) then Prepend([ts[0]], ScanBetweens(ts[1..]))
    else if |ts| < 3 then Failure(IndexOutOfBounds)
    else Prepend([BetweenAnd], ScanBetweens([ts[1]] + ts[3..]))
  }

  /** `p` put in front of a successful result. */
  function Prepend(p: seq<string>, r: Result<seq<string>>): (o: Result<seq<string>>)
    ensures o.Success? <==> r.Success?
    ensures r.Failure? ==> o == r
    ensures r.Success? ==> o.value == p + r.value
  {
    if r.Success? then Success(p + r.value) else r
  }

  /** A prefix without `between` is left alone by the loop. */
  lemma {:induction false} FoldBetweensPrefix(p: seq<string>, x: seq<string>)
    requires NoBetween(p)
    ensures FoldBetweens(p + x) == Prepend(p, FoldBetweens(x))
    decreases |x|
  {
    var i := FirstBetween(x);
    FirstBetweenPrefix(p, x);
    if i < |x| {
      RemoveAtPrefix(p, x[i := BetweenAnd], i + 2);
      MarkPrefix(p, x, i);
      if i + 2 < |x| {
        FoldBetweensPrefix(p, RemoveAt(x[i := BetweenAnd], i + 2).value);
      }
    }
  }

  lemma MarkPrefix(p: seq<string>, x: seq<string>, i: nat)
    requires i < |x|
    ensures (p + x)[|p| + i := BetweenAnd] == p + x[i := BetweenAnd]
  {
  }

  /** Removing behind a prefix leaves the prefix in front. */
  lemma RemoveAtPrefix(p: seq<string>, x: seq<string>, j: nat)
    ensures RemoveAt(p + x, |p| + j) == Prepend(p, RemoveAt(x, j))
  {
    if j < |x| {
      assert (p + x)[..|p| + j] + (p + x)[|p| + j + 1..] == p + (x[..j] + x[j + 1..]);
    }
  }

  lemma {:induction false} FirstBetweenPrefix(p: seq<string>, x: seq<string>)
    requires NoBetween(p)
    ensures FirstBetween(p + x) == |p| + FirstBetween(x)
    decreases |p|
  {
    if |p| == 0 {
      assert p + x == x;
    } else {
      assert (p + x)[1..] == p[1..] + x;
      FirstBetweenPrefix(p[1..], x);
    }
  }

  /** The restarting loop of `buildTokens` and the single pass agree on
      every token list, failures included. */
  lemma {:induction false} FoldIsScan(ts: seq<string>)
    ensures FoldBetweens(ts) == ScanBetweens(ts)
    decreases |ts|
  {
    if |ts| == 0 {
    } else if !IsBetween(ts[0]) {
      FoldIsScan(ts[1..]);
      FoldSkips(ts);
    } else if |ts| >= 3 {
      FoldIsScan([ts[1]] + ts[3..]);
      FoldFolds(ts);
    }
  }

  /** A first token other than `between` is kept by both. */
  lemma FoldSkips(ts: seq<string>)
    requires |ts| > 0 && !IsBetween(ts[0])
    ensures FoldBetweens(ts) == Prepend([ts[0]], FoldBetweens(ts[1..]))
  {
    assert NoBetween([ts[0]]);
    assert ts == [ts[0]] + ts[1..];
    FoldBetweensPrefix([ts[0]], ts[1..]);
  }

  /** A first `between` with two tokens after it is folded by both. */
  lemma FoldFolds(ts: seq<string>)
    requires |ts| >= 3 && IsBetween(ts[0])
    ensures FoldBetweens(ts) == Prepend([BetweenAnd], FoldBetweens([ts[1]] + ts[3..]))
  {
    var rest := [ts[1]] + ts[3..];
    FoldFirstStep(ts, [BetweenAnd] + rest);
    PlaceholderAlone();
    FoldBetweensPrefix([BetweenAnd], rest);
  }

  lemma PlaceholderAlone()
    ensures NoBetween([BetweenAnd])
  {
    PlaceholderIsNotBetween();
  }

  lemma FoldFirstStep(ts: seq<string>, next: seq<string>)
    requires |ts| >= 3 && IsBetween(ts[0])
    requires next == [BetweenAnd] + ([ts[1]] + ts[3..])
    ensures FoldBetweens(ts) == FoldBetweens(next)
  {
    FirstBetweenAtHead(ts);
    MarkedShape(ts, next);
    FoldStep(ts, 0, next);
  }

  lemma FirstBetweenAtHead(ts: seq<string>)
    requires |ts| > 0 && IsBetween(ts[0])
    ensures FirstBetween(ts) == 0
  {
  }

  /** One round of the labelled loop once its result is known. */
  lemma FoldStep(ts: seq<string>, i: nat, next: seq<string>)
    requires i == FirstBetween(ts) < |ts|
    requires RemoveAt(ts[i := BetweenAnd], i + 2) == Success(next)
    ensures FoldBetweens(ts) == FoldBetweens(next)
  {
  }

  lemma MarkedShape(ts: seq<string>, next: seq<string>)
    requires |ts| >= 3
    requires next == [BetweenAnd] + ([ts[1]] + ts[3..])
    ensures RemoveAt(ts[0 := BetweenAnd], 2) == Success(next)
  {
    var m := ts[0 := BetweenAnd];
    assert m[..2] + m[3..] == next;
  }

  /** After a successful pass no `between` is left in any case. */
  lemma {:induction false} ScanLeavesNoBetween(ts: seq<string>)
    requires ScanBetweens(ts).Success?
    ensures NoBetween(ScanBetweens(ts).value)
    decreases |ts|
  {
    if |ts| > 0 {
      if !IsBetween(ts[0]) {
        ScanLeavesNoBetween(ts[1..]);
      } else {
        PlaceholderIsNotBetween();
        ScanLeavesNoBetween([ts[1]] + ts[3..]);
      }
    }
  }

  /** A first `between` with fewer than two tokens after it makes the
      pass fail. */
  lemma ScanFailsOnShortFirst(ts: seq<string>)
    requires FirstBetween(ts) < |ts| <= FirstBetween(ts) + 2
    ensures ScanBetweens(ts) == Failure(IndexOutOfBounds)
  {
    FoldFailsOnShortFirst(ts);
    FoldIsScan(ts);
  }

  lemma FoldFailsOnShortFirst(ts: seq<string>)
    requires FirstBetween(ts) < |ts| <= FirstBetween(ts) + 2
    ensures FoldBetweens(ts) == Failure(IndexOutOfBounds)
  {
    var i := FirstBetween(ts);
    assert |ts[i := BetweenAnd]| == |ts|;
    FoldStops(ts, i);
  }

  /** A round of the labelled loop whose removal throws ends the loop. */
  lemma FoldStops(ts: seq<string>, i: nat)
    requires i == FirstBetween(ts) < |ts|
    requires RemoveAt(ts[i := BetweenAnd], i + 2).Failure?
    ensures FoldBetweens(ts) == Failure(IndexOutOfBounds)
  {
  }

  /** Occurrences of `t` in `ts`. */
  function Count(ts: seq<string>, t: string): nat {
    if |ts| == 0 then 0 else (if ts[0] == t then 1 else 0) + Count(ts[1..], t)
  }

  /** Each fold removes exactly one token: the result is shorter than the
      input by the number of placeholders it holds. */
  lemma {:induction false} ScanRemovesOnePerFold(ts: seq<string>)
    requires ScanBetweens(ts).Success?
    requires Count(ts, BetweenAnd) == 0
    ensures |ScanBetweens(ts).value| == |ts| - Count(ScanBetweens(ts).value, BetweenAnd)
    decreases |ts|
  {
    if |ts| > 0 {
      var r := ScanBetweens(ts).value;
      if !IsBetween(ts[0]) {
        ScanRemovesOnePerFold(ts[1..]);
        assert r[1..] == ScanBetweens(ts[1..]).value;
      } else {
        var rest := [ts[1]] + ts[3..];
        assert Count(rest, BetweenAnd) == 0 by {
          CountAppend(ts[..3], ts[3..], BetweenAnd);
          assert ts == ts[..3] + ts[3..];
          assert Count(ts[..3], BetweenAnd) == 0;
          assert rest == [ts[1]] + ts[3..];
          CountAppend([ts[1]], ts[3..], BetweenAnd);
          assert ts[..3][1..] == [ts[1], ts[2]];
        }
        ScanRemovesOnePerFold(rest);
        assert r[1..] == ScanBetweens(rest).value;
      }
    }
  }

  lemma {:induction false} CountAppend(a: seq<string>, b: seq<string>, t: string)
    ensures Count(a + b, t) == Count(a, t) + Count(b, t)
    decreases |a|
  {
    if |a| == 0 {
      assert a + b == b;
    } else {
      assert (a + b)[1..] == a[1..] + b;
      CountAppend(a[1..], b, t);
    }
  }

  /** The clean-up loop: every placeholder becomes `between` again. */
  function RestoreBetweens(ts: seq<string>): (r: seq<string>)
    ensures |r| == |ts|
    ensures forall j :: 0 <= j < |ts| ==> r[j] == (if ts[j] == BetweenAnd then "between" else ts[j])
  {
    seq(|ts|, j requires 0 <= j < |ts| => if ts[j] == BetweenAnd then "between" else ts[j])
  }

  /** What `buildTokens` does with the tokens `split` returned: when they
      hold `between` or `BETWEEN`, fold every `between` (in any case) with
      its bounds. */
  function FoldTokens(ts: seq<string>): (r: Result<seq<string>>)
    ensures r.Failure? ==> r.error == IndexOutOfBounds
    ensures r.Success? ==> |r.value| <= |ts|
  {
    FoldIsScan(ts);
    if "between" in ts || "BETWEEN" in ts then
      var folded :- FoldBetweens(ts);
      var dirty := FirstBetween(ts) < |ts|;
      Success(if dirty then RestoreBetweens(folded) else folded)
    else Success(ts)
  }

  /** `Parser.buildTokens`: the only fault is the one `List.remove` throws,
      and folding never adds a token. */
  function BuildTokens(q: string): (r: Result<seq<string>>)
    ensures r.Failure? ==> r.error == IndexOutOfBounds
    ensures r.Success? ==> |r.value| <= |Split(q)|
  {
    FoldTokens(Split(q))
  }

  /** Without an exact `between` or `BETWEEN` token, the tokens are left
      as they are; mixed-case spellings alone are not folded. */
  lemma FoldTokensWithoutBetween(ts: seq<string>)
    requires "between" !in ts && "BETWEEN" !in ts
    ensures FoldTokens(ts) == Success(ts)
  {
  }

  /** With an exact `between` or `BETWEEN`, `buildTokens` is the single
      pass followed by the clean-up, and it succeeds exactly when the pass
      does. */
  lemma FoldTokensWithBetween(ts: seq<string>)
    requires "between" in ts || "BETWEEN" in ts
    ensures FoldTokens(ts).Success? <==> ScanBetweens(ts).Success?
    ensures FoldTokens(ts).Success? ==> FoldTokens(ts).value == RestoreBetweens(ScanBetweens(ts).value)
    ensures FoldTokens(ts).Failure? ==> FoldTokens(ts).error == IndexOutOfBounds
  {
    assert FirstBetween(ts) < |ts| by {
      SpellingsAreBetween();
      FirstBetweenIsFirst(ts);
    }
    FoldIsScan(ts);
  }

  lemma SpellingsAreBetween()
    ensures IsBetween("between") && IsBetween("BETWEEN")
  {
  }

  /** The clean-up of a pass result leaves no placeholder, and the only
      `between` it leaves is the lower-case one. */
  lemma RestoreOfScan(r: seq<string>)
    requires NoBetween(r)
    ensures forall j :: 0 <= j < |RestoreBetweens(r)| ==>
      RestoreBetweens(r)[j] != BetweenAnd
      && (IsBetween(RestoreBetweens(r)[j]) ==> RestoreBetweens(r)[j] == "between")
  {
  }

  /** When `buildTokens` folds, every `between` it returns is spelled in
      lower case and no placeholder survives. */
  lemma FoldTokensLeavesCleanBetweens(ts: seq<string>)
    requires "between" in ts || "BETWEEN" in ts
    requires FoldTokens(ts).Success?
    ensures forall j :: 0 <= j < |FoldTokens(ts).value| ==>
      FoldTokens(ts).value[j] != BetweenAnd
      && (IsBetween(FoldTokens(ts).value[j]) ==> FoldTokens(ts).value[j] == "between")
  {
    FoldTokensWithBetween(ts);
    ScanLeavesNoBetween(ts);
    RestoreOfScan(ScanBetweens(ts).value);
  }
}

=== FILE: query_in_clause.dfy ===
/** Normalising `in (...)` clauses before tokenising
    (Parser.alignINClause and Parser.findMinIfNot). */
module QueryInClause {
  import opened Wrappers
  import opened QueryText

  /** `NO_INDEX`, what `indexOf` returns when nothing is found. */
  const NoIndex: int := -1

  const InLower: string := " in "
  const InLowerParen: string := " in("
  const InUpper: string := " IN "
  const InUpperParen: string := " IN("

  /** `findMinIfNot(a, b, notMin)`: the smaller of `a` and `b` among those
      above `notMin`, falling back to `b` when neither is. */
  function FindMinIfNot(a: int, b: int, notMin: int): (r: int)
    ensures r == a || r == b
    ensures r > notMin <==> (a > notMin || b > notMin)
    ensures a > notMin ==> r <= a
    ensures b > notMin ==> r <= b
    ensures a <= notMin ==> r == b
    ensures a > notMin && b <= notMin ==> r == a
  {
    if a <= notMin then b
    else if b <= notMin then a
    else if a <= b then a else b
  }

  /** The least of the candidates above `notMin`, or `fallback` when
      none is. */
  function LeastAbove(cs: seq<int>, notMin: int, fallback: int): (r: int)
    ensures AnyAbove(cs, notMin) ==> r in cs && r > notMin
    ensures forall i :: 0 <= i < |cs| && cs[i] > notMin ==> r <= cs[i]
    ensures (forall i :: 0 <= i < |cs| ==> cs[i] <= notMin) ==> r == fallback
  {
    if |cs| == 0 then fallback
    else
      var rest := LeastAbove(cs[1..], notMin, fallback);
      if cs[0] <= notMin then rest
      else if AnyAbove(cs[1..], notMin) && rest < cs[0] then rest
      else cs[0]
  }

  predicate AnyAbove(cs: seq<int>, notMin: int) {
    exists i :: 0 <= i < |cs| && cs[i] > notMin
  }

  /** `findMinIfNot` is the least candidate above the bound, falling back
      to its second argument; the order of the candidates matters only
      when neither is above the bound. */
  lemma FindMinIfNotIsLeastAbove(a: int, b: int, notMin: int)
    ensures FindMinIfNot(a, b, notMin) == LeastAbove([a, b], notMin, b)
    ensures a > notMin || b > notMin ==> FindMinIfNot(a, b, notMin) == FindMinIfNot(b, a, notMin)
  {
    assert [a, b][1..] == [b];
    assert [b][1..] == [];
    assert LeastAbove([b], notMin, b) == (if b <= notMin then LeastAbove([], notMin, b) else b);
  }

  /** The four-way combination of `alignINClause` is the least index found,
      or -1 when no keyword was found. */
  lemma FindMinIfNotChain(lower: int, lowerParen: int, upper: int, upperParen: int)
    requires lower >= NoIndex && lowerParen >= NoIndex && upper >= NoIndex && upperParen >= NoIndex
    ensures FindMinIfNot(upperParen, FindMinIfNot(upper, FindMinIfNot(lower, lowerParen, NoIndex), NoIndex), NoIndex)
      == LeastAbove([lower, lowerParen, upper, upperParen], NoIndex, NoIndex)
  {
    var cs := [lower, lowerParen, upper, upperParen];
    var r := FindMinIfNot(upperParen, FindMinIfNot(upper, FindMinIfNot(lower, lowerParen, NoIndex), NoIndex), NoIndex);
    var l := LeastAbove(cs, NoIndex, NoIndex);
    if AnyAbove(cs, NoIndex) {
      assert r in cs && r > NoIndex;
      assert l in cs;
    } else {
      assert cs[0] == NoIndex && cs[1] == NoIndex && cs[2] == NoIndex && cs[3] == NoIndex;
    }
  }

  /** One of the four `in` keywords starts at index `j` of `q`. */
  predicate InKeywordAt(q: string, j: int) {
    || OccursAt(q, InLower, j)
    || OccursAt(q, InLowerParen, j)
    || OccursAt(q, InUpper, j)
    || OccursAt(q, InUpperParen, j)
  }

  /** The first index of any `in` keyword, combined with `findMinIfNot` as
      the source does, or -1. */
  function FirstInKeyword(q: string): (k: int)
    ensures k == NoIndex <==> forall j :: !InKeywordAt(q, j)
    ensures k != NoIndex ==> InKeywordAt(q, k) && forall j :: j < k ==> !InKeywordAt(q, j)
  {
    var lower := IndexOf(q, InLower);
    var lowerParen := IndexOf(q, InLowerParen);
    var upper := IndexOf(q, InUpper);
    var upperParen := IndexOf(q, InUpperParen);
    var k := FindMinIfNot(upperParen, FindMinIfNot(upper, FindMinIfNot(lower, lowerParen, NoIndex), NoIndex), NoIndex);
    assert k == NoIndex ==> forall j :: !InKeywordAt(q, j) by {
      if k == NoIndex {
        assert lower == NoIndex && lowerParen == NoIndex && upper == NoIndex && upperParen == NoIndex;
      }
    }
    assert k != NoIndex ==> InKeywordAt(q, k);
    k
  }

  /** True when the first keyword is directly followed by "(", in which
      case the source puts a space between them. */
  predicate OpensRight(q: string, k: int) {
    k > NoIndex && (k == IndexOf(q, InLowerParen) || k == IndexOf(q, InUpperParen))
  }

  /** `indexIn == indexLowerInWithParentheses || indexIn == indexUpperInWithParentheses`
      holds exactly when a keyword ending in "(" starts at the first
      keyword. */
  lemma OpensRightIsParenKeyword(q: string, k: int)
    requires k == FirstInKeyword(q)
    ensures OpensRight(q, k) <==> k != NoIndex && ParenKeywordAt(q, k)
  {
    if k != NoIndex && OccursAt(q, InLowerParen, k) {
      var j := IndexOf(q, InLowerParen);
      assert j != NoIndex && j <= k;
      assert InKeywordAt(q, j);
    }
    if k != NoIndex && OccursAt(q, InUpperParen, k) {
      var j := IndexOf(q, InUpperParen);
      assert j != NoIndex && j <= k;
      assert InKeywordAt(q, j);
    }
  }

  lemma KeywordStartsWithSpace(q: string, k: int)
    ensures InKeywordAt(q, k) ==> q[k] == ' '
  {
    if InKeywordAt(q, k) {
      assert q[k..k + 4][0] == q[k];
    }
  }

  /** The first keyword is one of the two that end in "(". */
  predicate ParenKeywordAt(q: string, k: int) {
    OccursAt(q, InLowerParen, k) || OccursAt(q, InUpperParen, k)
  }

  /** The text after the space insertion of `alignINClause`: when the first
      keyword is " in(" or " IN(", a space goes between the keyword and its
      "("; otherwise the text is unchanged. */
  function Spaced(q: string, k: int): (t: string)
    requires k == FirstInKeyword(q)
    ensures k != NoIndex && ParenKeywordAt(q, k) ==> t == q[..k + 3] + [' '] + q[k + 3..]
    ensures !(k != NoIndex && ParenKeywordAt(q, k)) ==> t == q
    ensures k != NoIndex ==> 0 <= k < |t| && t[k] == ' '
    ensures |t| <= |q| + 1
    ensures RemoveSpaces(t) == RemoveSpaces(q)
    ensures forall j :: 0 <= j < |q| && j < k ==> t[j] == q[j]
  {
    OpensRightIsParenKeyword(q, k);
    KeywordStartsWithSpace(q, k);
    if OpensRight(q, k) then InsertSpace(q, k + 3) else q
  }

  /** The text around the first parenthesised group after the keyword:
      what precedes its "(", the group from "(" to ")" inclusive, and
      what follows its ")". */
  datatype Group = Group(before: string, group: string, after: string)

  /** Locating the group with `indexOf('(', k)`, `indexOf(')', open)` and
      the three `substring` calls; a missing "(" or ")" makes `substring`
      throw. The group opens at the first "(" after the keyword and closes
      at the first ")" after that. */
  function LocateGroup(t: string, k: nat): (r: Result<Group>)
    requires k < |t| && t[k] == ' '
    ensures r.Success? ==> r.value.before + r.value.group + r.value.after == t
    ensures r.Success? ==> k < |r.value.before| && |r.value.group| >= 2
    ensures r.Success? ==> r.value.group[0] == '(' && r.value.group[|r.value.group| - 1] == ')'
    ensures r.Success? ==> forall i :: k <= i < |r.value.before| ==> t[i] != '('
    ensures r.Success? ==> forall i :: 0 <= i < |r.value.group| - 1 ==> r.value.group[i] != ')'
    ensures r.Success? <==> exists i, j :: k <= i < j < |t| && t[i] == '(' && t[j] == ')'
    ensures r.Failure? ==> r.error == StringIndexOutOfBounds
    ensures (forall i :: k <= i < |t| ==> t[i] != '(') ==> r.Failure?
    ensures (forall i :: k <= i < |t| ==> t[i] != ')') ==> r.Failure?
  {
    var open := IndexOfChar(t, '(', k);
    var close := IndexOfChar(t, ')', open);
    GroupBounds(t, k);
    match Substring(t, open, close + 1)
    case Failure(e) => Failure(e)
    case Success(group) =>
      // Once this substring succeeds, `substring(0, open)` and
      // `substring(close + 1)` are within bounds too.
      GroupFound(t, k, open, close);
      Success(Group(t[..open], group, t[close + 1..]))
  }

  /** The pieces around a group that was found. */
  lemma GroupFound(t: string, k: nat, open: int, close: int)
    requires k < |t|
    requires open == IndexOfChar(t, '(', k) && close == IndexOfChar(t, ')', open)
    requires k < open < close < |t|
    ensures var g := Group(t[..open], t[open..close + 1], t[close + 1..]);
      && g.before + g.group + g.after == t
      && k < |g.before| && |g.group| >= 2
      && g.group[0] == '(' && g.group[|g.group| - 1] == ')'
      && (forall i :: k <= i < |g.before| ==> t[i] != '(')
      && (forall i :: 0 <= i < |g.group| - 1 ==> g.group[i] != ')')
  {
    GroupPieces(t, open, close);
    var group := t[open..close + 1];
    forall i | 0 <= i < |group| - 1 ensures group[i] != ')' {
      assert group[i] == t[open + i];
    }
  }

  /** The group's `substring` is in bounds exactly when a "(" follows the
      keyword and a ")" follows that "(". */
  lemma GroupBounds(t: string, k: nat)
    requires k < |t| && t[k] == ' '
    ensures var open := IndexOfChar(t, '(', k);
      var close := IndexOfChar(t, ')', open);
      && (0 <= open <= close + 1 <= |t| <==> exists i, j :: k <= i < j < |t| && t[i] == '(' && t[j] == ')')
      && (0 <= open <= close + 1 <= |t| ==> k < open < close)
      && ((forall i :: k <= i < |t| ==> t[i] != '(') ==> !(0 <= open <= close + 1 <= |t|))
      && ((forall i :: k <= i < |t| ==> t[i] != ')') ==> !(0 <= open <= close + 1 <= |t|))
  {
    var open := IndexOfChar(t, '(', k);
    var close := IndexOfChar(t, ')', open);
    if exists i, j :: k <= i < j < |t| && t[i] == '(' && t[j] == ')' {
      var i, j :| k <= i < j < |t| && t[i] == '(' && t[j] == ')';
      assert open != -1 && open <= i;
      assert close != -1;
    }
  }

  lemma GroupPieces(t: string, open: nat, close: nat)
    requires open <= close < |t|
    ensures t == t[..open] + t[open..close + 1] + t[close + 1..]
  {
  }

  /** `Parser.alignINClause`: from the first `in` keyword, delete the spaces
      of the parenthesised group that follows it, then treat the rest of
      the text the same way. */
  function AlignInClause(q: string): (r: Result<string>)
    ensures r.Failure? ==> r.error == StringIndexOutOfBounds
    decreases |q|
  {
    var k := FirstInKeyword(q);
    var t := Spaced(q, k);
    if k == NoIndex then Success(t)
    else
      var g :- LocateGroup(t, k);
      var rest :- AlignInClause(g.after);
      Success(g.before + RemoveSpaces(g.group) + rest)
  }

  /** Without an `in` keyword the text comes back unchanged. */
  lemma AlignWithoutKeyword(q: string)
    requires forall j :: !InKeywordAt(q, j)
    ensures AlignInClause(q) == Success(q)
  {
  }

  /** Deleting the spaces of the middle part leaves the text without
      spaces unchanged. */
  lemma RemoveSpacesInMiddle(before: string, group: string, after: string, rest: string)
    requires RemoveSpaces(rest) == RemoveSpaces(after)
    ensures RemoveSpaces(before + RemoveSpaces(group) + rest) == RemoveSpaces(before + group + after)
  {
    RemoveSpacesOfSpaceFree(RemoveSpaces(group));
    RemoveSpacesAppend(before + RemoveSpaces(group), rest);
    RemoveSpacesAppend(before, RemoveSpaces(group));
    RemoveSpacesAppend(before + group, after);
    RemoveSpacesAppend(before, group);
  }

  /** `alignINClause` only inserts and deletes spaces. */
  lemma {:induction false} AlignKeepsNonSpaces(q: string)
    requires AlignInClause(q).Success?
    ensures RemoveSpaces(AlignInClause(q).value) == RemoveSpaces(q)
    decreases |q|
  {
    var k := FirstInKeyword(q);
    if k != NoIndex {
      var t := Spaced(q, k);
      var g := LocateGroup(t, k).value;
      AlignKeepsNonSpaces(g.after);
      RemoveSpacesInMiddle(g.before, g.group, g.after, AlignInClause(g.after).value);
    }
  }

  /** The space insertion adds no character other than ' '. */
  lemma SpacedAddsOnlyASpace(q: string, k: int, c: char)
    requires k == FirstInKeyword(q) != NoIndex && c != ' '
    requires forall i :: k <= i < |q| ==> q[i] != c
    ensures forall j :: k <= j < |Spaced(q, k)| ==> Spaced(q, k)[j] != c
  {
    var t := Spaced(q, k);
    if OpensRight(q, k) {
      forall j | k <= j < |t| ensures t[j] != c {
        if j > k + 3 {
          assert t[j] == q[j - 1];
        }
      }
    }
  }

  /** Without a "(" or without a ")" after the first `in` keyword,
      `substring` throws. */
  lemma AlignFailsWithoutGroup(q: string, c: char)
    requires FirstInKeyword(q) != NoIndex
    requires c == '(' || c == ')'
    requires forall i :: FirstInKeyword(q) <= i < |q| ==> q[i] != c
    ensures AlignInClause(q) == Failure(StringIndexOutOfBounds)
  {
    var k := FirstInKeyword(q);
    SpacedAddsOnlyASpace(q, k, c);
    assert LocateGroup(Spaced(q, k), k).Failure?;
  }

  /** One round of `alignINClause` once its group is found: the text up
      to the group's "(" is kept, the group loses its spaces, and the text
      after its ")" is aligned in turn; the whole succeeds exactly when
      that rest does. */
  lemma AlignStep(q: string, k: int, g: Group)
    requires k == FirstInKeyword(q) != NoIndex
    requires LocateGroup(Spaced(q, k), k) == Success(g)
    ensures AlignInClause(q).Success? <==> AlignInClause(g.after).Success?
    ensures AlignInClause(q).Success? ==>
      AlignInClause(q).value == g.before + RemoveSpaces(g.group) + AlignInClause(g.after).value
  {
  }

  /** A query with one `in` clause: the spaced text with the spaces of that
      clause's group deleted, and nothing else changed. */
  lemma AlignOneClause(q: string, k: int, g: Group)
    requires k == FirstInKeyword(q) != NoIndex
    requires LocateGroup(Spaced(q, k), k) == Success(g)
    requires forall j :: !InKeywordAt(g.after, j)
    ensures AlignInClause(q) == Success(g.before + RemoveSpaces(g.group) + g.after)
  {
    AlignWithoutKeyword(g.after);
    AlignStep(q, k, g);
  }

  lemma AlignOfEmpty()
    ensures AlignInClause("") == Success("")
  {
    assert forall j :: !InKeywordAt("", j);
  }

  lemma ExampleKeyword()
    ensures FirstInKeyword("a in (1, 2)") == 1
    ensures Spaced("a in (1, 2)", 1) == "a in (1, 2)"
  {
    var q := "a in (1, 2)";
    assert InKeywordAt(q, 1) by {
      assert q[1..5] == InLower;
    }
    assert !InKeywordAt(q, 0) && !OccursAt(q, InLowerParen, 1) && !OccursAt(q, InUpperParen, 1) by {
      assert q[0..4][0] == 'a';
      assert q[1..5][3] == ' ';
    }
  }

  lemma ExampleGroup()
    ensures LocateGroup("a in (1, 2)", 1) == Success(Group("a in ", "(1, 2)", ""))
  {
    ExampleOpen();
    ExampleClose();
    ExampleSlices();
  }

  lemma ExampleOpen()
    ensures IndexOfChar("a in (1, 2)", '(', 1) == 5
  {
    var q := "a in (1, 2)";
    assert q[1] == ' ' && q[2] == 'i' && q[3] == 'n' && q[4] == ' ' && q[5] == '(';
    IndexOfCharAt(q, '(', 1, 5);
  }

  lemma ExampleClose()
    ensures IndexOfChar("a in (1, 2)", ')', 5) == 10
  {
    var q := "a in (1, 2)";
    assert q[5] == '(' && q[6] == '1' && q[7] == ',' && q[8] == ' ' && q[9] == '2' && q[10] == ')';
    IndexOfCharAt(q, ')', 5, 10);
  }

  lemma ExampleSlices()
    ensures "a in (1, 2)"[0..5] == "a in "
    ensures "a in (1, 2)"[5..11] == "(1, 2)"
    ensures "a in (1, 2)"[11..11] == ""
  {
  }

  lemma ExampleList()
    ensures RemoveSpaces("(1, 2)") == "(1,2)"
  {
    assert "(1, 2)" == "(1," + [' '] + "2)";
    RemoveSpacesOfInserted("(1,", "2)");
    assert "(1," + "2)" == "(1,2)";
    RemoveSpacesOfSpaceFree("(1,2)");
  }

  lemma ExampleJoin()
    ensures "a in " + "(1,2)" + "" == "a in (1,2)"
  {
  }

  /** `a in (1, 2)` loses the space inside its list. */
  lemma AlignExampleSpaced()
    ensures AlignInClause("a in (1, 2)") == Success("a in (1,2)")
  {
    ExampleKeyword();
    ExampleGroup();
    AlignOfEmpty();
    ExampleList();
    AlignStep("a in (1, 2)", 1, Group("a in ", "(1, 2)", ""));
    ExampleJoin();
  }

  lemma ExampleKeywordParen()
    ensures FirstInKeyword("a in(1, 2)") == 1
    ensures Spaced("a in(1, 2)", 1) == "a in (1, 2)"
  {
    var q := "a in(1, 2)";
    assert OccursAt(q, InLowerParen, 1) by {
      assert q[1..5] == InLowerParen;
    }
    assert !InKeywordAt(q, 0) by {
      assert q[0..4][0] == 'a';
    }
    assert IndexOf(q, InLowerParen) == 1;
    assert q[..4] + [' '] + q[4..] == "a in (1, 2)";
  }

  /** `a in(1, 2)` gains a space after `in` and loses the one inside its
      list. */
  lemma AlignExampleParen()
    ensures AlignInClause("a in(1, 2)") == Success("a in (1,2)")
  {
    ExampleKeywordParen();
    ExampleGroup();
    AlignOfEmpty();
    ExampleList();
    AlignStep("a in(1, 2)", 1, Group("a in ", "(1, 2)", ""));
    ExampleJoin();
  }
}

=== FILE: query_parser.dfy ===
/** Turning a query into its operator-last token order (Parser.toPrefix):
    the precedence table, the operator test and the shunting-yard pass. */
module QueryParser {
  import opened Wrappers
  import opened QueryText
  import opened QueryTokens
  import opened QueryBetween
  import opened QueryInClause

  /** `PRECEDENCE`: the binding strength of every operator, keyed by its
      lower-case spelling, as the static initialiser enters them. */
  const PrecedenceTable: seq<(string, int)> := [
    ("(", 15), (")", 15),
    ("not", 8),
    ("=", 10), (">", 10), ("<", 10), (">=", 10), ("<=", 10), ("==", 10), ("!=", 10),
    ("between", 10), ("in", 10), ("like", 10), ("ilike", 10), ("regex", 10),
    ("and", 5),
    ("or", 3)
  ]

  /** The value entered for `key`, or 0 when there is none (a Java
      `null`). */
  function Lookup(table: seq<(string, int)>, key: string): int {
    if |table| == 0 then 0
    else if table[0].0 == key then table[0].1
    else Lookup(table[1..], key)
  }

  /** `PRECEDENCE.get(lowerCaseInternal(t))`, with 0 standing for the
      `null` a non-operator gets. */
  function Rank(t: string): int {
    Lookup(PrecedenceTable, ToLower(t))
  }

  /** `c` is the first character of some key of the table. */
  predicate StartsKey(c: char) {
    c == '(' || c == ')' || c == '=' || c == '<' || c == '>' || c == '!'
    || c == 'n' || c == 'b' || c == 'i' || c == 'l' || c == 'r' || c == 'a' || c == 'o'
  }

  lemma KeysStart()
    ensures forall j :: 0 <= j < |PrecedenceTable| ==>
      |PrecedenceTable[j].0| > 0 && StartsKey(PrecedenceTable[j].0[0])
  {
  }

  /** A key entered nowhere in `table` gets `null`. */
  lemma {:induction false} LookupMissing(table: seq<(string, int)>, key: string)
    requires forall j :: 0 <= j < |table| ==> table[j].0 != key
    ensures Lookup(table, key) == 0
    decreases |table|
  {
    if |table| > 0 {
      LookupMissing(table[1..], key);
    }
  }

  /** A key gets the value of its first entry. */
  lemma {:induction false} LookupFound(table: seq<(string, int)>, key: string, i: nat)
    requires i < |table| && table[i].0 == key
    requires forall j :: 0 <= j < i ==> table[j].0 != key
    ensures Lookup(table, key) == table[i].1
    decreases i
  {
    if i > 0 {
      LookupFound(table[1..], key, i - 1);
    }
  }

  /** A token whose first character, lower-cased, starts no operator is
      an operand: names, numbers and quoted values. */
  lemma RankOfOperand(t: string)
    requires |t| > 0 && !StartsKey(LowerChar(t[0]))
    ensures Rank(t) == 0 && !IsOperator(t)
  {
    KeysStart();
    LookupMissing(PrecedenceTable, ToLower(t));
  }

  /** The look-up ignores case: `AND` binds like `and`. */
  lemma RankOfAnd()
    ensures Rank("and") == 5 && Rank("AND") == 5
  {
    assert ToLower("AND") == "and";
    assert ToLower("and") == "and";
    AndEntry();
  }

  lemma AndEntry()
    ensures Lookup(PrecedenceTable, "and") == 5
  {
    KeysStart();
    LookupFound(PrecedenceTable, "and", 15);
  }

  /** `isOperand`, which despite its name holds for the operators: the
      tokens whose lower-case spelling has a precedence (every entered
      precedence is positive). */
  predicate IsOperator(t: string) {
    Rank(t) > 0
  }

  /** With only positive values entered, a key has a positive value
      exactly when it is entered. */
  lemma {:induction false} LookupPositive(table: seq<(string, int)>, key: string)
    requires forall j :: 0 <= j < |table| ==> table[j].1 > 0
    ensures Lookup(table, key) > 0 <==> exists j :: 0 <= j < |table| && table[j].0 == key
    decreases |table|
  {
    if |table| > 0 && table[0].0 != key {
      LookupPositive(table[1..], key);
      assert forall j :: 1 <= j < |table| ==> table[j] == table[1..][j - 1];
    }
  }

  /** `isOperand` is `PRECEDENCE.containsKey` of the lower-cased token. */
  lemma IsOperatorIsKey(t: string)
    ensures IsOperator(t) <==> exists j :: 0 <= j < |PrecedenceTable| && PrecedenceTable[j].0 == ToLower(t)
  {
    var key := ToLower(t);
    RanksPositive();
    LookupPositive(PrecedenceTable, key);
  }

  lemma RanksPositive()
    ensures forall j :: 0 <= j < |PrecedenceTable| ==> PrecedenceTable[j].1 > 0
  {
  }

  /** Both tests look only at the lower-cased spelling: a token and its
      lower-case form are alike operators or not, and compare alike. */
  lemma PrecedenceIgnoresCase(a: string, b: string)
    ensures IsOperator(a) <==> IsOperator(ToLower(a))
    ensures HasHigherPrecedence(a, b) <==> HasHigherPrecedence(ToLower(a), ToLower(b))
  {
    ToLowerTwice(a);
    ToLowerTwice(b);
  }

  /** `hasHigherPrecedence`. The source unboxes `null` for a non-operator
      and throws; the loop only ever compares operators (`StackOk`), where
      this comparison is the source's. */
  predicate HasHigherPrecedence(a: string, b: string) {
    Rank(a) > Rank(b)
  }

  /** The output list and the operator stack (top at the end). */
  datatype Machine = Machine(output: seq<string>, stack: seq<string>)

  /** Every entry of the stack is an operator and none is ")". */
  ghost predicate StackOk(stack: seq<string>) {
    forall j :: 0 <= j < |stack| ==> IsOperator(stack[j]) && stack[j] != ")"
  }

  /** `openParanthesesFound`, which holds when the stack is not empty and
      its top is NOT "(". */
  predicate TopIsNotOpen(stack: seq<string>) {
    |stack| > 0 && stack[|stack| - 1] != "("
  }

  /** `a` is a prefix of `b`. */
  ghost predicate IsPrefix(a: seq<string>, b: seq<string>) {
    |a| <= |b| && forall j :: 0 <= j < |a| ==> a[j] == b[j]
  }

  /** `s` in reverse order. */
  function Reverse(s: seq<string>): (r: seq<string>)
    ensures |r| == |s|
    ensures forall j :: 0 <= j < |s| ==> r[j] == s[|s| - 1 - j]
  {
    if |s| == 0 then [] else [s[|s| - 1]] + Reverse(s[..|s| - 1])
  }

  /** Popping the top onto the output, then the rest down to `k`, puts
      the suffix from `k` on the output in reverse. */
  lemma ReverseOfPopped(s: seq<string>, k: nat)
    requires k < |s|
    ensures Reverse(s[k..]) == [s[|s| - 1]] + Reverse(s[..|s| - 1][k..])
  {
    assert s[k..][..|s[k..]| - 1] == s[..|s| - 1][k..];
  }

  /** The two pop loops of `toPrefix`, on ")" and on an operator: move the
      top of the stack to the output while the stack is not empty, its top
      is not "(", and `stop` does not hold for the top. */
  function PopWhile(m: Machine, stop: string -> bool): (r: Machine)
    decreases |m.stack|
    ensures IsPrefix(r.stack, m.stack)
    ensures r.output == m.output + Reverse(m.stack[|r.stack|..])
    ensures forall j :: |r.stack| <= j < |m.stack| ==> m.stack[j] != "(" && !stop(m.stack[j])
    ensures TopIsNotOpen(r.stack) ==> stop(r.stack[|r.stack| - 1])
  {
    if TopIsNotOpen(m.stack) && !stop(m.stack[|m.stack| - 1]) then
      var n := |m.stack| - 1;
      var inner := Machine(m.output + [m.stack[n]], m.stack[..n]);
      var r := PopWhile(inner, stop);
      PopWhileStep(m, stop, inner, r);
      r
    else
      assert m.stack[|m.stack|..] == [];
      m
  }

  /** One pop of `PopWhile`: what holds after popping the rest of `inner`
      holds after popping `m`'s top first. */
  lemma PopWhileStep(m: Machine, stop: string -> bool, inner: Machine, r: Machine)
    requires TopIsNotOpen(m.stack) && !stop(m.stack[|m.stack| - 1])
    requires inner == Machine(m.output + [m.stack[|m.stack| - 1]], m.stack[..|m.stack| - 1])
    requires IsPrefix(r.stack, inner.stack)
    requires r.output == inner.output + Reverse(inner.stack[|r.stack|..])
    requires forall j :: |r.stack| <= j < |inner.stack| ==> inner.stack[j] != "(" && !stop(inner.stack[j])
    ensures IsPrefix(r.stack, m.stack)
    ensures r.output == m.output + Reverse(m.stack[|r.stack|..])
    ensures forall j :: |r.stack| <= j < |m.stack| ==> m.stack[j] != "(" && !stop(m.stack[j])
  {
    var k := |r.stack|;
    var n := |m.stack| - 1;
    assert IsPrefix(r.stack, m.stack) by {
      forall j | 0 <= j < k ensures r.stack[j] == m.stack[j] {
        assert inner.stack[j] == m.stack[j];
      }
    }
    assert r.output == m.output + Reverse(m.stack[k..]) by {
      ReverseOfPopped(m.stack, k);
      assert m.output + [m.stack[n]] + Reverse(inner.stack[k..])
          == m.output + ([m.stack[n]] + Reverse(inner.stack[k..]));
    }
    forall j | k <= j < |m.stack| ensures m.stack[j] != "(" && !stop(m.stack[j]) {
      if j < n {
        assert inner.stack[j] == m.stack[j];
      }
    }
  }

  /** The pop loop on ")": move operators from the stack to the output
      until a "(" is on top or the stack is empty. */
  function PopToOpen(m: Machine): (r: Machine)
    ensures IsPrefix(r.stack, m.stack)
    ensures r.output == m.output + Reverse(m.stack[|r.stack|..])
    ensures !TopIsNotOpen(r.stack)
    ensures forall j :: |r.stack| <= j < |m.stack| ==> m.stack[j] != "("
  {
    PopWhile(m, _ => false)
  }

  /** The rest of the ")" case: after popping to "(", drop the "(" itself
      if there is one; an unmatched ")" has emptied the stack and nothing
      is removed. */
  function CloseParen(m: Machine): (r: Machine)
  {
    var p := PopToOpen(m);
    if |p.stack| > 0 then Machine(p.output, p.stack[..|p.stack| - 1]) else p
  }

  /** The pop loop on an operator: move operators that do not bind less
      tightly than `token` from the stack to the output, stopping at "(". */
  function PopNotLower(token: string, m: Machine): (r: Machine)
    ensures IsPrefix(r.stack, m.stack)
    ensures r.output == m.output + Reverse(m.stack[|r.stack|..])
    ensures forall j :: |r.stack| <= j < |m.stack| ==>
      m.stack[j] != "(" && !HasHigherPrecedence(token, m.stack[j])
    ensures TopIsNotOpen(r.stack) ==> HasHigherPrecedence(token, r.stack[|r.stack| - 1])
  {
    PopWhile(m, t => HasHigherPrecedence(token, t))
  }

  /** One iteration of `toPrefix`'s loop over the tokens. */
  function Step(m: Machine, token: string): (r: Machine)
  {
    if IsOperator(token) then
      if token == ")" then CloseParen(m)
      else
        var p := PopNotLower(token, m);
        Machine(p.output, p.stack + [token])
    else Machine(m.output + [token], m.stack)
  }

  /** `toPrefix`'s loop over `tokens`. */
  function Run(m: Machine, tokens: seq<string>): (r: Machine)
    decreases |tokens|
  {
    if |tokens| == 0 then m else Run(Step(m, tokens[0]), tokens[1..])
  }

  /** The end of `toPrefix`: what is left on the stack goes to the
      output, top first. */
  function Drain(m: Machine): (r: seq<string>)
  {
    m.output + Reverse(m.stack)
  }

  /** The shunting-yard part of `toPrefix`, from tokens to output. Only
      operators move: the operands come out in the order they were
      written. ")" never reaches the output, and "(" does only when it was
      left unmatched on the stack. Apart from parentheses the output is the
      input reordered, nothing lost and nothing duplicated. */
  function ToPostfix(tokens: seq<string>): (r: seq<string>)
    ensures ")" !in r
    ensures "(" in r ==> "(" in Run(Machine([], []), tokens).stack
    ensures Operands(r) == Operands(tokens)
    ensures multiset(Kept(r)) == multiset(Kept(tokens))
  {
    var m := Run(Machine([], []), tokens);
    RunKeepsStackOk(Machine([], []), tokens);
    RunKeepsParensOut(Machine([], []), tokens);
    DrainParens(m);
    RunOperands(Machine([], []), tokens);
    PoppingAddsNoOperand(m.output, m.stack);
    RunConserves(Machine([], []), tokens);
    KeptAppend(m.output, Reverse(m.stack));
    KeptReverse(m.stack);
    Drain(m)
  }

  /** `Parser.toPrefix`: align `in` clauses, tokenise, then reorder. It
      either throws what `substring` or `List.remove` throw, or returns the
      tokens of the aligned text reordered: the same operands in the same
      order, the same tokens other than parentheses, and no ")". */
  function ToPrefix(q: string): (r: Result<seq<string>>)
    ensures r.Failure? ==> r.error == StringIndexOutOfBounds || r.error == IndexOutOfBounds
    ensures r.Success? ==> AlignInClause(q).Success? && BuildTokens(AlignInClause(q).value).Success?
    ensures r.Success? ==>
      var tokens := BuildTokens(AlignInClause(q).value).value;
      && ")" !in r.value
      && Operands(r.value) == Operands(tokens)
      && multiset(Kept(r.value)) == multiset(Kept(tokens))
  {
    var aligned :- AlignInClause(q);
    var tokens :- BuildTokens(aligned);
    Success(ToPostfix(tokens))
  }

  // ---------------------------------------------------------------------
  // Invariants of the loop

  /** Only operators other than ")" are ever pushed. */
  lemma StepKeepsStackOk(m: Machine, token: string)
    requires StackOk(m.stack)
    ensures StackOk(Step(m, token).stack)
  {
    if IsOperator(token) {
      if token == ")" {
        CloseKeepsStackOk(m);
      } else {
        PushKeepsStackOk(m, token);
      }
    }
  }

  lemma CloseKeepsStackOk(m: Machine)
    requires StackOk(m.stack)
    ensures StackOk(CloseParen(m).stack)
  {
    var p := PopToOpen(m);
    StackOkOfPrefix(p.stack, m.stack);
    if |p.stack| > 0 {
      StackOkOfPrefix(p.stack[..|p.stack| - 1], p.stack);
    }
  }

  lemma PushKeepsStackOk(m: Machine, token: string)
    requires StackOk(m.stack) && IsOperator(token) && token != ")"
    ensures StackOk(PopNotLower(token, m).stack + [token])
  {
    var p := PopNotLower(token, m);
    StackOkOfPrefix(p.stack, m.stack);
    StackOkPush(p.stack, token);
  }

  lemma StackOkPush(s: seq<string>, t: string)
    requires StackOk(s) && IsOperator(t) && t != ")"
    ensures StackOk(s + [t])
  {
    assert forall j :: 0 <= j < |s| ==> (s + [t])[j] == s[j];
  }

  lemma StackOkOfPrefix(a: seq<string>, b: seq<string>)
    requires IsPrefix(a, b) && StackOk(b)
    ensures StackOk(a)
  {
  }

  /** The stack only ever holds operators other than ")". */
  lemma {:induction false} RunKeepsStackOk(m: Machine, tokens: seq<string>)
    requires StackOk(m.stack)
    ensures StackOk(Run(m, tokens).stack)
    decreases |tokens|
  {
    if |tokens| > 0 {
      StepKeepsStackOk(m, tokens[0]);
      RunKeepsStackOk(Step(m, tokens[0]), tokens[1..]);
    }
  }

  /** The operands of `ts`, in order. */
  function Operands(ts: seq<string>): (r: seq<string>)
    ensures |r| <= |ts|
  {
    if |ts| == 0 then [] else (if IsOperator(ts[0]) then [] else [ts[0]]) + Operands(ts[1..])
  }

  lemma {:induction false} OperandsAppend(a: seq<string>, b: seq<string>)
    ensures Operands(a + b) == Operands(a) + Operands(b)
    decreases |a|
  {
    if |a| == 0 {
      assert a + b == b;
    } else {
      var h := if IsOperator(a[0]) then [] else [a[0]];
      assert (a + b)[0] == a[0];
      assert (a + b)[1..] == a[1..] + b;
      OperandsAppend(a[1..], b);
      assert Operands(a + b) == h + Operands(a[1..] + b);
      assert h + (Operands(a[1..]) + Operands(b)) == (h + Operands(a[1..])) + Operands(b);
    }
  }

  /** A sequence of operators has no operands. */
  lemma {:induction false} OperandsOfOperators(s: seq<string>)
    requires forall j :: 0 <= j < |s| ==> IsOperator(s[j])
    ensures Operands(s) == []
    decreases |s|
  {
    if |s| > 0 {
      OperandsOfOperators(s[1..]);
    }
  }

  lemma StackOkReverse(s: seq<string>)
    requires StackOk(s)
    ensures forall j :: 0 <= j < |Reverse(s)| ==> IsOperator(Reverse(s)[j])
  {
  }

  /** Moving operators from the stack to the output adds no operand. */
  lemma PoppingAddsNoOperand(output: seq<string>, popped: seq<string>)
    requires StackOk(popped)
    ensures Operands(output + Reverse(popped)) == Operands(output)
  {
    StackOkReverse(popped);
    OperandsOfOperators(Reverse(popped));
    OperandsAppend(output, Reverse(popped));
  }

  lemma StackOkSuffix(s: seq<string>, k: nat)
    requires StackOk(s) && k <= |s|
    ensures StackOk(s[k..])
  {
    assert forall j :: 0 <= j < |s| - k ==> s[k..][j] == s[k + j];
  }

  /** One step adds to the output's operands exactly the token, when it is
      an operand. */
  lemma StepOperands(m: Machine, token: string)
    requires StackOk(m.stack)
    ensures Operands(Step(m, token).output) == Operands(m.output) + Operands([token])
  {
    assert Operands([token]) == (if IsOperator(token) then [] else [token]) + Operands([]);
    if IsOperator(token) {
      var p := if token == ")" then PopToOpen(m) else PopNotLower(token, m);
      StackOkSuffix(m.stack, |p.stack|);
      PoppingAddsNoOperand(m.output, m.stack[|p.stack|..]);
    } else {
      OperandsAppend(m.output, [token]);
    }
  }

  /** The loop keeps operands in their input order. */
  lemma {:induction false} RunOperands(m: Machine, tokens: seq<string>)
    requires StackOk(m.stack)
    ensures Operands(Run(m, tokens).output) == Operands(m.output) + Operands(tokens)
    decreases |tokens|
  {
    if |tokens| > 0 {
      var m1 := Step(m, tokens[0]);
      StepOperands(m, tokens[0]);
      StepKeepsStackOk(m, tokens[0]);
      RunOperands(m1, tokens[1..]);
      OperandsCons(tokens);
      ConcatAssoc(Operands(m.output), Operands([tokens[0]]), Operands(tokens[1..]));
    }
  }

  lemma {:induction false} OperandsCons(ts: seq<string>)
    requires |ts| > 0
    ensures Operands(ts) == Operands([ts[0]]) + Operands(ts[1..])
  {
    assert ts == [ts[0]] + ts[1..];
    OperandsAppend([ts[0]], ts[1..]);
  }

  lemma ConcatAssoc(a: seq<string>, b: seq<string>, c: seq<string>)
    ensures a + b + c == a + (b + c)
  {
  }

  // ---------------------------------------------------------------------
  // Parentheses

  lemma ParensAreOperators()
    ensures IsOperator("(") && IsOperator(")")
    ensures Rank("(") == 15
  {
    assert ToLower("(") == "(";
    assert ToLower(")") == ")";
  }

  /** No parenthesis in `s`. */
  ghost predicate NoParens(s: seq<string>) {
    forall j :: 0 <= j < |s| ==> s[j] != "(" && s[j] != ")"
  }

  lemma NoParensAppend(a: seq<string>, b: seq<string>)
    requires NoParens(a) && NoParens(b)
    ensures NoParens(a + b)
  {
  }

  /** Popped operators are never parentheses. */
  lemma PoppedHaveNoParens(s: seq<string>, k: nat)
    requires StackOk(s) && k <= |s|
    requires forall j :: k <= j < |s| ==> s[j] != "("
    ensures NoParens(Reverse(s[k..]))
  {
    forall j | 0 <= j < |s| - k ensures Reverse(s[k..])[j] != "(" && Reverse(s[k..])[j] != ")" {
      assert Reverse(s[k..])[j] == s[|s| - 1 - j];
    }
  }

  /** The loop never writes a parenthesis to the output. */
  lemma StepKeepsParensOut(m: Machine, token: string)
    requires StackOk(m.stack) && NoParens(m.output)
    ensures NoParens(Step(m, token).output)
  {
    if token == ")" {
      assert Step(m, token) == CloseParen(m) by { ParensAreOperators(); }
      PopKeepsParensOut(m, PopToOpen(m));
    } else if IsOperator(token) {
      PopKeepsParensOut(m, PopNotLower(token, m));
    } else {
      NoParensAppend(m.output, [token]);
    }
  }

  /** Popping operators other than "(" writes no parenthesis. */
  lemma PopKeepsParensOut(m: Machine, p: Machine)
    requires StackOk(m.stack) && NoParens(m.output)
    requires IsPrefix(p.stack, m.stack)
    requires p.output == m.output + Reverse(m.stack[|p.stack|..])
    requires forall j :: |p.stack| <= j < |m.stack| ==> m.stack[j] != "("
    ensures NoParens(p.output)
  {
    PoppedHaveNoParens(m.stack, |p.stack|);
    NoParensAppend(m.output, Reverse(m.stack[|p.stack|..]));
  }

  lemma {:induction false} RunKeepsParensOut(m: Machine, tokens: seq<string>)
    requires StackOk(m.stack) && NoParens(m.output)
    ensures NoParens(Run(m, tokens).output)
    decreases |tokens|
  {
    if |tokens| > 0 {
      StepKeepsParensOut(m, tokens[0]);
      StepKeepsStackOk(m, tokens[0]);
      RunKeepsParensOut(Step(m, tokens[0]), tokens[1..]);
    }
  }

  /** Draining a machine whose output holds no parenthesis leaves ")"
      out, and lets "(" in only from the stack. */
  lemma DrainParens(m: Machine)
    requires StackOk(m.stack) && NoParens(m.output)
    ensures ")" !in Drain(m)
    ensures "(" in Drain(m) ==> "(" in m.stack
  {
    var r := Drain(m);
    var n := |m.output|;
    forall j | 0 <= j < |r| ensures r[j] != ")" && (r[j] == "(" ==> "(" in m.stack) {
      if j >= n {
        assert r[j] == Reverse(m.stack)[j - n];
        assert Reverse(m.stack)[j - n] == m.stack[|m.stack| - 1 - (j - n)];
      }
    }
  }

  // ---------------------------------------------------------------------
  // Conservation: apart from parentheses, the result is a permutation of
  // the tokens.

  /** `s` without its parentheses. */
  function Kept(s: seq<string>): (r: seq<string>)
    ensures |r| <= |s|
    ensures NoParens(r)
  {
    if |s| == 0 then []
    else (if s[0] == "(" || s[0] == ")" then [] else [s[0]]) + Kept(s[1..])
  }

  lemma {:induction false} KeptAppend(a: seq<string>, b: seq<string>)
    ensures Kept(a + b) == Kept(a) + Kept(b)
    decreases |a|
  {
    if |a| == 0 {
      assert a + b == b;
    } else {
      assert (a + b)[1..] == a[1..] + b;
      KeptAppend(a[1..], b);
    }
  }

  lemma {:induction false} KeptReverse(s: seq<string>)
    ensures multiset(Kept(Reverse(s))) == multiset(Kept(s))
    decreases |s|
  {
    if |s| > 0 {
      var init := s[..|s| - 1];
      KeptReverse(init);
      KeptReverseStep(s, init);
    }
  }

  /** The step of `KeptReverse`: the last token moves to the front. */
  lemma KeptReverseStep(s: seq<string>, init: seq<string>)
    requires |s| > 0 && init == s[..|s| - 1]
    requires multiset(Kept(Reverse(init))) == multiset(Kept(init))
    ensures multiset(Kept(Reverse(s))) == multiset(Kept(s))
  {
    var last := s[|s| - 1];
    ReverseOfLast(s, init, last);
    KeptAppend([last], Reverse(init));
    KeptAppend(init, [last]);
  }

  lemma ReverseOfLast(s: seq<string>, init: seq<string>, last: string)
    requires |s| > 0 && init == s[..|s| - 1] && last == s[|s| - 1]
    ensures Reverse(s) == [last] + Reverse(init)
    ensures s == init + [last]
  {
  }

  lemma PrefixSplit(a: seq<string>, b: seq<string>)
    requires IsPrefix(a, b)
    ensures b == a + b[|a|..]
  {
  }

  /** The tokens in play: what is on the output and on the stack. */
  function InPlay(m: Machine): multiset<string> {
    multiset(Kept(m.output)) + multiset(Kept(m.stack))
  }

  /** Moving operators from the stack to the output loses none. */
  lemma PopsConserve(m: Machine, r: Machine)
    requires IsPrefix(r.stack, m.stack)
    requires r.output == m.output + Reverse(m.stack[|r.stack|..])
    ensures InPlay(r) == InPlay(m)
  {
    var popped := m.stack[|r.stack|..];
    PrefixSplit(r.stack, m.stack);
    KeptAppend(r.stack, popped);
    KeptAppend(m.output, Reverse(popped));
    KeptReverse(popped);
  }

  lemma KeptOfParen(s: seq<string>, t: string)
    requires t == "(" || t == ")"
    ensures Kept(s + [t]) == Kept(s)
  {
    KeptAppend(s, [t]);
  }

  lemma CloseParenConserves(m: Machine)
    ensures InPlay(CloseParen(m)) == InPlay(m)
  {
    var p := PopToOpen(m);
    PopsConserve(m, p);
    if |p.stack| > 0 {
      DropOpenConserves(p);
    }
  }

  /** Dropping the "(" on top of the stack loses no kept token. */
  lemma DropOpenConserves(p: Machine)
    requires |p.stack| > 0 && p.stack[|p.stack| - 1] == "("
    ensures InPlay(Machine(p.output, p.stack[..|p.stack| - 1])) == InPlay(p)
  {
    var n := |p.stack| - 1;
    assert p.stack == p.stack[..n] + ["("];
    KeptOfParen(p.stack[..n], "(");
  }

  lemma PushConserves(token: string, m: Machine, r: Machine)
    requires token != "(" && token != ")"
    requires r == Step(m, token)
    requires IsOperator(token)
    ensures InPlay(r) == InPlay(m) + multiset{token}
  {
    var p := PopNotLower(token, m);
    PopsConserve(m, p);
    KeptAppend(p.stack, [token]);
  }

  lemma OpenParenConserves(m: Machine, r: Machine)
    requires r == Step(m, "(")
    ensures InPlay(r) == InPlay(m)
  {
    ParensAreOperators();
    var p := PopNotLower("(", m);
    PopsConserve(m, p);
    KeptOfParen(p.stack, "(");
  }

  lemma OperandConserves(token: string, m: Machine, r: Machine)
    requires token != "(" && token != ")"
    requires r == Machine(m.output + [token], m.stack)
    ensures InPlay(r) == InPlay(m) + multiset{token}
  {
    KeptAppend(m.output, [token]);
  }

  /** One iteration adds the token to the tokens in play, unless it is a
      parenthesis, and removes nothing else. */
  lemma StepConserves(m: Machine, token: string)
    ensures InPlay(Step(m, token)) == InPlay(m) + multiset(Kept([token]))
  {
    var r := Step(m, token);
    KeptOfOne(token);
    if token == ")" {
      assert r == CloseParen(m) by { ParensAreOperators(); }
      CloseParenConserves(m);
    } else if token == "(" {
      OpenParenConserves(m, r);
    } else if IsOperator(token) {
      PushConserves(token, m, r);
    } else {
      OperandConserves(token, m, r);
    }
  }

  lemma KeptOfOne(t: string)
    ensures Kept([t]) == if t == "(" || t == ")" then [] else [t]
  {
    assert [t][1..] == [];
  }

  lemma {:induction false} RunConserves(m: Machine, tokens: seq<string>)
    ensures InPlay(Run(m, tokens)) == InPlay(m) + multiset(Kept(tokens))
    decreases |tokens|
  {
    if |tokens| > 0 {
      var m1 := Step(m, tokens[0]);
      StepConserves(m, tokens[0]);
      RunConserves(m1, tokens[1..]);
      KeptCons(tokens);
    }
  }

  lemma KeptCons(ts: seq<string>)
    requires |ts| > 0
    ensures Kept(ts) == Kept([ts[0]]) + Kept(ts[1..])
  {
    assert [ts[0]][1..] == [];
  }

  // ---------------------------------------------------------------------
  // Ordering of the stack

  /** Within one parenthesis level, every operator binds strictly tighter
      than the one below it. */
  ghost predicate Ordered(stack: seq<string>) {
    forall j :: 0 < j < |stack| ==>
      stack[j - 1] == "(" || stack[j] == "(" || HasHigherPrecedence(stack[j], stack[j - 1])
  }

  lemma OrderedOfPrefix(a: seq<string>, b: seq<string>)
    requires IsPrefix(a, b) && Ordered(b)
    ensures Ordered(a)
  {
    forall j | 0 < j < |a|
      ensures a[j - 1] == "(" || a[j] == "(" || HasHigherPrecedence(a[j], a[j - 1])
    {
      assert a[j - 1] == b[j - 1] && a[j] == b[j];
    }
  }

  /** Pushing `token` onto a stack that the popping loop left behind keeps
      the stack ordered. */
  lemma OrderedPush(token: string, p: seq<string>)
    requires Ordered(p)
    requires token == "(" || !TopIsNotOpen(p) || HasHigherPrecedence(token, p[|p| - 1])
    ensures Ordered(p + [token])
  {
    var s := p + [token];
    forall j | 0 < j < |s|
      ensures s[j - 1] == "(" || s[j] == "(" || HasHigherPrecedence(s[j], s[j - 1])
    {
      if j < |p| {
        assert s[j - 1] == p[j - 1] && s[j] == p[j];
      }
    }
  }

  lemma CloseParenKeepsOrdered(m: Machine)
    requires Ordered(m.stack)
    ensures Ordered(CloseParen(m).stack)
  {
    var p := PopToOpen(m);
    OrderedOfPrefix(p.stack, m.stack);
    if |p.stack| > 0 {
      OrderedOfPrefix(p.stack[..|p.stack| - 1], p.stack);
    }
  }

  lemma StepKeepsOrdered(m: Machine, token: string)
    requires Ordered(m.stack)
    ensures Ordered(Step(m, token).stack)
  {
    if IsOperator(token) {
      if token == ")" {
        CloseParenKeepsOrdered(m);
      } else {
        var p := PopNotLower(token, m);
        OrderedOfPrefix(p.stack, m.stack);
        OrderedPush(token, p.stack);
      }
    }
  }

  /** The loop keeps the stack ordered by precedence: an operator is only
      ever pushed above one that binds strictly less tightly, or above
      "(". */
  lemma {:induction false} RunKeepsOrdered(m: Machine, tokens: seq<string>)
    requires Ordered(m.stack)
    ensures Ordered(Run(m, tokens).stack)
    decreases |tokens|
  {
    if |tokens| > 0 {
      StepKeepsOrdered(m, tokens[0]);
      RunKeepsOrdered(Step(m, tokens[0]), tokens[1..]);
    }
  }

  // ---------------------------------------------------------------------
  // A worked example

  lemma RankOfEquals()
    ensures Rank("=") == 10
  {
    assert ToLower("=") == "=";
    LookupFound(PrecedenceTable, "=", 3);
  }

  lemma ExampleOperands()
    ensures !IsOperator("x") && !IsOperator("y") && !IsOperator("1") && !IsOperator("2")
  {
    assert !StartsKey(LowerChar('x')) && !StartsKey(LowerChar('y'));
    assert !StartsKey(LowerChar('1')) && !StartsKey(LowerChar('2'));
    RankOfOperand("x");
    RankOfOperand("y");
    RankOfOperand("1");
    RankOfOperand("2");
  }

  lemma ExampleRanks()
    ensures Rank("=") == 10 && Rank("and") == 5
    ensures !IsOperator("x") && !IsOperator("y") && !IsOperator("1") && !IsOperator("2")
  {
    RankOfAnd();
    RankOfEquals();
    ExampleOperands();
  }

  /** An operand goes straight to the output. */
  lemma StepOperand(m: Machine, t: string)
    requires !IsOperator(t)
    ensures Step(m, t) == Machine(m.output + [t], m.stack)
  {
  }

  /** An operator above one that binds less tightly, above "(" or on an
      empty stack is pushed without popping. */
  lemma StepPush(m: Machine, t: string)
    requires IsOperator(t) && t != ")"
    requires !TopIsNotOpen(m.stack) || HasHigherPrecedence(t, m.stack[|m.stack| - 1])
    ensures Step(m, t) == Machine(m.output, m.stack + [t])
  {
    assert m.stack[|m.stack|..] == [];
  }

  /** An operator above a single operator that binds at least as tightly
      pops it first. */
  lemma StepPopOne(m: Machine, t: string, top: string)
    requires IsOperator(t) && t != ")"
    requires m.stack == [top] && top != "(" && !HasHigherPrecedence(t, top)
    ensures Step(m, t) == Machine(m.output + [top], [t])
  {
    var p := PopNotLower(t, m);
    assert |p.stack| == 0;
    assert Reverse([top]) == [top];
  }

  /** The first iteration of the loop, taken on its own. */
  lemma RunUnfold(m: Machine, t: string, rest: seq<string>, next: Machine)
    requires Step(m, t) == next
    ensures Run(m, [t] + rest) == Run(next, rest)
  {
    assert ([t] + rest)[1..] == rest;
  }

  /** An operand, an operator that goes on the stack, and an operand. */
  lemma RunComparison(m: Machine, x: string, op: string, y: string, rest: seq<string>)
    requires !IsOperator(x) && !IsOperator(y)
    requires op != ")" && (!TopIsNotOpen(m.stack) || HasHigherPrecedence(op, m.stack[|m.stack| - 1]))
    requires IsOperator(op)
    ensures Run(m, [x, op, y] + rest) == Run(Machine(m.output + [x, y], m.stack + [op]), rest)
  {
    StepOperand(m, x);
    var m1 := Machine(m.output + [x], m.stack);
    StepPush(m1, op);
    var m2 := Machine(m1.output, m.stack + [op]);
    StepOperand(m2, y);
    RunUnfold(m2, y, rest, Machine(m.output + [x, y], m.stack + [op]));
    RunUnfold(m1, op, [y] + rest, m2);
    RunUnfold(m, x, [op, y] + rest, m1);
    assert [x, op, y] + rest == [x] + ([op, y] + rest);
    assert [op, y] + rest == [op] + ([y] + rest);
    assert m1.output + [y] == m.output + [x, y];
  }

  /** `x1 op1 y1 conj x2 op2 y2` with `conj` binding less tightly than
      both comparisons: each comparison follows its operands and the
      connective comes last. */
  lemma ToPostfixOfConnective(x1: string, op1: string, y1: string, conj: string,
                              x2: string, op2: string, y2: string)
    requires !IsOperator(x1) && !IsOperator(y1) && !IsOperator(x2) && !IsOperator(y2)
    requires IsOperator(conj) && conj != "(" && conj != ")"
    requires op1 != "(" && op1 != ")" && op2 != ")"
    requires HasHigherPrecedence(op1, conj) && HasHigherPrecedence(op2, conj)
    ensures ToPostfix([x1, op1, y1, conj, x2, op2, y2]) == [x1, y1, op1, x2, y2, op2, conj]
  {
    var m := Machine([], []);
    RunConnective(m, x1, op1, y1, conj, x2, op2, y2);
    SevenDrained(x1, y1, op1, x2, y2, op2, conj);
  }

  lemma RunConnective(m: Machine, x1: string, op1: string, y1: string, conj: string,
                      x2: string, op2: string, y2: string)
    requires m.stack == []
    requires !IsOperator(x1) && !IsOperator(y1) && !IsOperator(x2) && !IsOperator(y2)
    requires IsOperator(conj) && conj != "(" && conj != ")"
    requires op1 != "(" && op1 != ")" && op2 != ")"
    requires HasHigherPrecedence(op1, conj) && HasHigherPrecedence(op2, conj)
    ensures Run(m, [x1, op1, y1, conj, x2, op2, y2])
      == Machine(m.output + [x1, y1] + [op1] + [x2, y2], [conj] + [op2])
  {
    var tail := [x2, op2, y2];
    SevenTokens(x1, op1, y1, conj, tail);
    RunComparison(m, x1, op1, y1, [conj] + tail);
    var m3 := Machine(m.output + [x1, y1], m.stack + [op1]);
    var m4 := Machine(m3.output + [op1], [conj]);
    ConnectivePops(m3, conj, op1, tail, m4);
    RunLastComparison(m4, x2, op2, y2);
  }

  lemma SevenTokens(a: string, b: string, c: string, d: string, tail: seq<string>)
    requires |tail| == 3
    ensures [a, b, c, d, tail[0], tail[1], tail[2]] == [a, b, c] + ([d] + tail)
  {
  }

  lemma RunLastComparison(m: Machine, x: string, op: string, y: string)
    requires !IsOperator(x) && !IsOperator(y)
    requires op != ")" && (!TopIsNotOpen(m.stack) || HasHigherPrecedence(op, m.stack[|m.stack| - 1]))
    requires IsOperator(op)
    ensures Run(m, [x, op, y]) == Machine(m.output + [x, y], m.stack + [op])
  {
    assert [x, op, y] == [x, op, y] + [];
    RunComparison(m, x, op, y, []);
  }

  lemma ConnectivePops(m3: Machine, conj: string, op1: string, tail: seq<string>, m4: Machine)
    requires IsOperator(conj) && conj != "(" && conj != ")"
    requires op1 != "(" && HasHigherPrecedence(op1, conj)
    requires m3.stack == [op1] && m4 == Machine(m3.output + [op1], [conj])
    ensures Run(m3, [conj] + tail) == Run(m4, tail)
  {
    StepPopOne(m3, conj, op1);
    RunUnfold(m3, conj, tail, m4);
  }

  lemma SevenDrained(a: string, b: string, c: string, d: string, e: string, f: string, g: string)
    ensures Drain(Machine([] + [a, b] + [c] + [d, e], [g] + [f])) == [a, b, c, d, e, f, g]
  {
    assert Reverse([g] + [f]) == [f, g];
  }

  /** `x = 1 and y = 2` comes out as `x 1 = y 2 = and`. */
  lemma ToPostfixExample()
    ensures ToPostfix(["x", "=", "1", "and", "y", "=", "2"]) == ["x", "1", "=", "y", "2", "=", "and"]
  {
    ExampleRanks();
    ToPostfixOfConnective("x", "=", "1", "and", "y", "=", "2");
  }
}

=== FILE: query_text.dfy ===
/** Character and string helpers the query parser relies on, written for
    ASCII text: `String.trim`, ASCII lower-casing, `indexOf`, `substring`
    and `replaceAll(" ", "")`. */
module QueryText {
  import opened Wrappers

  /** `String.trim` drops every character whose code is at most U+0020. */
  predicate IsTrimmable(c: char) {
    c <= ' '
  }

  /** True when `s` holds no control character, so that ' ' is its only
      trimmable character. */
  ghost predicate NoControlChars(s: string) {
    forall j :: 0 <= j < |s| ==> s[j] >= ' '
  }

  lemma NoControlCharsAppend(a: string, b: string)
    requires NoControlChars(a) && NoControlChars(b)
    ensures NoControlChars(a + b)
  {
  }

  /** `s` without its leading trimmable characters. */
  function TrimStart(s: string): (r: string)
    ensures |r| <= |s|
    ensures r != [] ==> !IsTrimmable(r[0])
    ensures (forall j :: 0 <= j < |s| ==> !IsTrimmable(s[j])) ==> r == s
  {
    if |s| > 0 && IsTrimmable(s[0]) then TrimStart(s[1..]) else s
  }

  /** `s` without its trailing trimmable characters. */
  function TrimEnd(s: string): (r: string)
    ensures |r| <= |s|
    ensures r != [] ==> !IsTrimmable(r[|r| - 1]) && r[0] == s[0]
    ensures (forall j :: 0 <= j < |s| ==> !IsTrimmable(s[j])) ==> r == s
  {
    if |s| > 0 && IsTrimmable(s[|s| - 1]) then TrimEnd(s[..|s| - 1]) else s
  }

  /** `String.trim`: `s` without its leading and trailing trimmable
      characters. */
  function Trim(s: string): (r: string)
    ensures |r| <= |s|
    ensures r != [] ==> !IsTrimmable(r[0]) && !IsTrimmable(r[|r| - 1])
    ensures (forall j :: 0 <= j < |s| ==> !IsTrimmable(s[j])) ==> r == s
  {
    TrimEnd(TrimStart(s))
  }

  /** What `trim` keeps is one run of `s`, starting at `cut`; everything
      before and after that run is trimmable, and the run's own ends are
      not. */
  lemma TrimExact(s: string, cut: nat)
    requires cut == |s| - |TrimStart(s)|
    ensures cut + |Trim(s)| <= |s|
    ensures forall j :: 0 <= j < |Trim(s)| ==> Trim(s)[j] == s[cut + j]
    ensures forall j :: 0 <= j < cut ==> IsTrimmable(s[j])
    ensures forall j :: cut + |Trim(s)| <= j < |s| ==> IsTrimmable(s[j])
    ensures Trim(s) != [] ==> !IsTrimmable(Trim(s)[0]) && !IsTrimmable(Trim(s)[|Trim(s)| - 1])
  {
    TrimStartCut(s);
    TrimSlice(s);
    TrimTail(s);
  }

  /** What `TrimStart` cuts is trimmable. */
  lemma {:induction false} TrimStartCut(s: string)
    ensures forall j :: 0 <= j < |s| - |TrimStart(s)| ==> IsTrimmable(s[j])
    decreases |s|
  {
    if |s| > 0 && IsTrimmable(s[0]) {
      TrimStartCut(s[1..]);
      forall j | 1 <= j < |s| - |TrimStart(s)| ensures IsTrimmable(s[j]) {
        assert s[j] == s[1..][j - 1];
      }
    }
  }

  /** What `TrimEnd` cuts is trimmable. */
  lemma {:induction false} TrimEndCut(s: string)
    ensures forall j :: |TrimEnd(s)| <= j < |s| ==> IsTrimmable(s[j])
    decreases |s|
  {
    if |s| > 0 && IsTrimmable(s[|s| - 1]) {
      TrimEndCut(s[..|s| - 1]);
    }
  }

  /** What trimming both ends cuts after the kept run is trimmable. */
  lemma {:induction false} TrimTail(s: string)
    ensures forall j :: |s| - |TrimStart(s)| + |TrimEnd(TrimStart(s))| <= j < |s| ==> IsTrimmable(s[j])
  {
    var u := TrimStart(s);
    var cut := |s| - |u|;
    TrimEndCut(u);
    forall j | cut + |TrimEnd(u)| <= j < |s| ensures IsTrimmable(s[j]) {
      TrimStartIndex(s, j - cut);
    }
  }

  /** Trimming both ends keeps the characters of `s` from the first one
      `TrimStart` keeps. */
  lemma {:induction false} TrimSlice(s: string)
    ensures |s| - |TrimStart(s)| + |TrimEnd(TrimStart(s))| <= |s|
    ensures forall j :: 0 <= j < |TrimEnd(TrimStart(s))| ==>
      TrimEnd(TrimStart(s))[j] == s[|s| - |TrimStart(s)| + j]
  {
    var u := TrimStart(s);
    var t := TrimEnd(u);
    forall j | 0 <= j < |t| ensures t[j] == s[|s| - |u| + j] {
      TrimSliceAt(s, j);
    }
  }

  lemma {:induction false} TrimSliceAt(s: string, j: nat)
    requires j < |TrimEnd(TrimStart(s))|
    ensures TrimEnd(TrimStart(s))[j] == s[|s| - |TrimStart(s)| + j]
  {
    TrimEndIndex(TrimStart(s), j);
    TrimStartIndex(s, j);
  }

  lemma {:induction false} TrimStartIndex(s: string, j: nat)
    requires j < |TrimStart(s)|
    ensures TrimStart(s)[j] == s[|s| - |TrimStart(s)| + j]
    decreases |s|
  {
    if |s| > 0 && IsTrimmable(s[0]) {
      TrimStartIndex(s[1..], j);
    }
  }

  lemma {:induction false} TrimEndIndex(s: string, j: nat)
    requires j < |TrimEnd(s)|
    ensures TrimEnd(s)[j] == s[j]
    decreases |s|
  {
    if |s| > 0 && IsTrimmable(s[|s| - 1]) {
      TrimEndIndex(s[..|s| - 1], j);
    }
  }

  /** Every character of the trimmed text is a character of `s`, at a
      fixed offset. */
  lemma TrimIndex(s: string, j: nat)
    requires j < |Trim(s)|
    ensures |s| - |TrimStart(s)| + j < |s|
    ensures Trim(s)[j] == s[|s| - |TrimStart(s)| + j]
  {
    TrimEndIndex(TrimStart(s), j);
    TrimStartIndex(s, j);
  }

  /** ASCII lower-casing of one character. */
  function LowerChar(c: char): char {
    if 'A' <= c <= 'Z' then (c as int + 32) as char else c
  }

  /** ASCII lower-casing, standing for `lowerCaseInternal` and for the
      comparison made by `equalsIgnoreCase`. */
  function ToLower(s: string): (r: string)
    ensures |r| == |s|
    ensures forall j :: 0 <= j < |s| ==> r[j] == LowerChar(s[j])
  {
    if |s| == 0 then "" else [LowerChar(s[0])] + ToLower(s[1..])
  }

  /** Lower-casing twice is lower-casing once. */
  lemma ToLowerTwice(s: string)
    ensures ToLower(ToLower(s)) == ToLower(s)
  {
    assert forall j :: 0 <= j < |s| ==> LowerChar(LowerChar(s[j])) == LowerChar(s[j]);
  }

  /** `a.equalsIgnoreCase(b)` for ASCII text: equal lengths and equal
      characters once lower-cased. */
  predicate EqualsIgnoreCase(a: string, b: string) {
    |a| == |b| && forall j :: 0 <= j < |a| ==> LowerChar(a[j]) == LowerChar(b[j])
  }

  /** Comparing ignoring case is comparing the lower-cased texts. */
  lemma EqualsIgnoreCaseIsLower(a: string, b: string)
    ensures EqualsIgnoreCase(a, b) <==> ToLower(a) == ToLower(b)
  {
    if |a| == |b| && ToLower(a) == ToLower(b) {
      forall j | 0 <= j < |a| ensures LowerChar(a[j]) == LowerChar(b[j]) {
        assert ToLower(a)[j] == ToLower(b)[j];
      }
    }
  }

  /** True when `s` contains no ' '. */
  predicate SpaceFree(s: string) {
    forall m :: 0 <= m < |s| ==> s[m] != ' '
  }

  /** `s` with every ' ' deleted: `replaceAll(" ", "")`. */
  function RemoveSpaces(s: string): (r: string)
    ensures |r| <= |s|
    ensures SpaceFree(r)
  {
    if |s| == 0 then ""
    else (if s[0] == ' ' then "" else [s[0]]) + RemoveSpaces(s[1..])
  }

  lemma {:induction false} RemoveSpacesAppend(a: string, b: string)
    ensures RemoveSpaces(a + b) == RemoveSpaces(a) + RemoveSpaces(b)
    decreases |a|
  {
    if |a| == 0 {
      assert a + b == b;
    } else {
      assert (a + b)[1..] == a[1..] + b;
      RemoveSpacesAppend(a[1..], b);
    }
  }

  /** `s` is what precedes index `k`, the character there, and what
      follows it. */
  lemma SplitAround(s: string, k: nat)
    requires k < |s|
    ensures s == s[..k] + ([s[k]] + s[k + 1..])
  {
  }

  /** The slice from `i` is the slice from `i` to `j` followed by the
      slice from `j`. */
  lemma SliceSplit(s: string, i: nat, j: nat)
    requires i <= j <= |s|
    ensures s[i..] == s[i..j] + s[j..]
  {
  }

  lemma RemoveSpacesOfSpace(rest: string)
    ensures RemoveSpaces([' '] + rest) == RemoveSpaces(rest)
  {
    assert ([' '] + rest)[1..] == rest;
  }

  /** Inserting a space changes nothing once spaces are deleted. */
  lemma RemoveSpacesOfInserted(a: string, b: string)
    ensures RemoveSpaces(a + [' '] + b) == RemoveSpaces(a + b)
  {
    assert a + [' '] + b == a + ([' '] + b);
    RemoveSpacesAppend(a, [' '] + b);
    RemoveSpacesOfSpace(b);
    RemoveSpacesAppend(a, b);
  }

  /** `s` with a space inserted before index `at`. */
  function InsertSpace(s: string, at: nat): (r: string)
    requires at <= |s|
    ensures |r| == |s| + 1 && r[at] == ' '
    ensures forall j :: 0 <= j < at ==> r[j] == s[j]
    ensures forall j :: at < j < |r| ==> r[j] == s[j - 1]
    ensures RemoveSpaces(r) == RemoveSpaces(s)
  {
    RemoveSpacesOfInserted(s[..at], s[at..]);
    assert s == s[..at] + s[at..];
    s[..at] + [' '] + s[at..]
  }

  lemma {:induction false} RemoveSpacesOfSpaceFree(s: string)
    requires SpaceFree(s)
    ensures RemoveSpaces(s) == s
    decreases |s|
  {
    if |s| > 0 {
      assert s == [s[0]] + s[1..];
      RemoveSpacesOfSpaceFree(s[1..]);
    }
  }

  /** `pat` occurs in `s` starting at index `j`. */
  predicate OccursAt(s: string, pat: string, j: int) {
    0 <= j && j + |pat| <= |s| && s[j..j + |pat|] == pat
  }

  /** `s.indexOf(pat, from)` for a non-negative `from`: the first index at
      or after `from` where `pat` occurs, or -1. */
  function IndexOfFrom(s: string, pat: string, from: nat): (r: int)
    decreases |s| - from
    ensures r == -1 || (from <= r && OccursAt(s, pat, r))
    ensures r == -1 ==> forall j :: from <= j ==> !OccursAt(s, pat, j)
    ensures r != -1 ==> forall j :: from <= j < r ==> !OccursAt(s, pat, j)
  {
    if from + |pat| > |s| then -1
    else if s[from..from + |pat|] == pat then from
    else IndexOfFrom(s, pat, from + 1)
  }

  /** `s.indexOf(pat)`. */
  function IndexOf(s: string, pat: string): (r: int)
    ensures r == -1 <==> forall j :: !OccursAt(s, pat, j)
    ensures r != -1 ==> OccursAt(s, pat, r) && forall j :: j < r ==> !OccursAt(s, pat, j)
  {
    IndexOfFrom(s, pat, 0)
  }

  /** `s.indexOf(c, from)`: a negative `from` searches from the start. */
  function IndexOfChar(s: string, c: char, from: int): (r: int)
    ensures r == -1 || (from <= r < |s| && 0 <= r && s[r] == c)
    ensures r == -1 ==> forall j :: 0 <= j < |s| && from <= j ==> s[j] != c
    ensures r != -1 ==> forall j :: 0 <= j < r && from <= j ==> s[j] != c
  {
    var r := IndexOfFrom(s, [c], if from < 0 then 0 else from);
    assert forall j :: 0 <= j < |s| ==> (OccursAt(s, [c], j) <==> s[j] == c) by {
      forall j | 0 <= j < |s| ensures OccursAt(s, [c], j) <==> s[j] == c {
        assert s[j..j + 1] == [s[j]];
      }
    }
    r
  }

  /** `s.indexOf(c, from)` is `r` once `s[r] == c` and no index from
      `from` up to `r` holds `c`. */
  lemma IndexOfCharAt(s: string, c: char, from: nat, r: nat)
    requires from <= r < |s| && s[r] == c
    requires forall j :: from <= j < r ==> s[j] != c
    ensures IndexOfChar(s, c, from) == r
  {
  }

  /** `s.substring(begin, end)`, which throws unless
      0 <= begin <= end <= |s|. */
  function Substring(s: string, begin: int, end: int): (r: Result<string>)
    ensures r.Success? <==> 0 <= begin <= end <= |s|
    ensures r.Success? ==> r.value == s[begin..end]
    ensures r.Failure? ==> r.error == StringIndexOutOfBounds
  {
    if 0 <= begin <= end <= |s| then Success(s[begin..end]) else Failure(StringIndexOutOfBounds)
  }
}

=== FILE: query_tokens.dfy ===
/** Tokenising a query expression (Parser.split) and folding
    `between x and y` into one `between` operator (Parser.buildTokens). */
module QueryTokens {
  import opened Wrappers
  import opened QueryText

  /** The characters of CHAR_OPERATORS that one character can equal: the
      multi-character entries " + ", " - ", " * " and " / " never match
      `String.valueOf(c)`. */
  predicate IsOperatorChar(c: char) {
    c == '(' || c == ')' || c == '=' || c == '<' || c == '>' || c == '!'
  }

  predicate IsParen(c: char) {
    c == '(' || c == ')'
  }

  /** True when `t` contains no operator character. */
  ghost predicate NoOperatorChars(t: string) {
    forall m :: 0 <= m < |t| ==> !IsOperatorChar(t[m])
  }

  /** A token `split` makes out of operator characters: one operator
      character, or an operator character followed by a non-parenthesis
      operator character (`>=`, `!=`, `==`, ...). */
  predicate IsOperatorToken(t: string) {
    || (|t| == 1 && IsOperatorChar(t[0]))
    || (|t| == 2 && IsOperatorChar(t[0]) && IsOperatorChar(t[1]) && !IsParen(t[1]))
  }

  /** Operator characters never share a token with anything else. */
  ghost predicate Isolated(t: string) {
    NoOperatorChars(t) || IsOperatorToken(t)
  }

  /** How many input characters one iteration of `split`'s loop consumes at
      index `i`: two for an operator character followed by a
      non-parenthesis operator character when `i < |s| - 2`, else one. */
  function Width(s: string, i: nat): (w: nat)
    requires i < |s|
    ensures 1 <= w <= 2 && i + w <= |s|
  {
    if IsOperatorChar(s[i]) && i < |s| - 2 && IsOperatorChar(s[i + 1]) && !IsParen(s[i + 1]) then 2 else 1
  }

  /** What one iteration of `split`'s loop appends to the buffer: the
      consumed characters, surrounded by spaces when they are operators. */
  function Chunk(s: string, i: nat): string
    requires i < |s|
  {
    var body := s[i..i + Width(s, i)];
    if IsOperatorChar(s[i]) then [' '] + body + [' '] else body
  }

  /** The text `split` builds from `s[i..]` before cutting it. */
  function Spread(s: string, i: nat): string
    requires i <= |s|
    decreases |s| - i
  {
    if i == |s| then "" else Chunk(s, i) + Spread(s, i + Width(s, i))
  }

  /** Index of the first ' ' in `t`, or |t|. */
  function SpaceIndex(t: string): (k: nat)
    ensures k <= |t|
    ensures k < |t| ==> t[k] == ' '
  {
    if |t| == 0 || t[0] == ' ' then 0 else 1 + SpaceIndex(t[1..])
  }

  /** No space comes before `SpaceIndex(t)`. */
  lemma {:induction false} SpaceIndexIsFirst(t: string)
    ensures forall j :: 0 <= j < SpaceIndex(t) ==> t[j] != ' '
    decreases |t|
  {
    if |t| > 0 && t[0] != ' ' {
      SpaceIndexIsFirst(t[1..]);
      assert forall j :: 1 <= j < SpaceIndex(t) ==> t[j] == t[1..][j - 1];
    }
  }

  /** `t.split(" ")` before Java drops trailing empty strings: the maximal
      space-free pieces of `t`, empty ones included. */
  function Pieces(t: string): seq<string>
    decreases |t|
  {
    var k := SpaceIndex(t);
    if k == |t| then [t] else [t[..k]] + Pieces(t[k + 1..])
  }

  /** One piece trimmed, as a list that is empty when nothing is left. */
  function Keep(p: string): seq<string> {
    var q := Trim(p);
    if q == "" then [] else [q]
  }

  /** Every piece trimmed, empty results dropped. */
  function Tidy(ps: seq<string>): seq<string> {
    if |ps| == 0 then [] else Keep(ps[0]) + Tidy(ps[1..])
  }

  /** A token as `split` hands it out: not empty, and without a space. */
  predicate IsToken(t: string) {
    t != "" && SpaceFree(t)
  }

  /** `t.split(" ")`, each piece trimmed, empty pieces dropped. */
  function Cut(t: string): seq<string> {
    Tidy(Pieces(t))
  }

  /** `Parser.split`. */
  function Split(s: string): (r: seq<string>)
    ensures forall j :: 0 <= j < |r| ==> IsToken(r[j])
  {
    CutGivesTokens(Spread(s, 0));
    Cut(Spread(s, 0))
  }

  // ---------------------------------------------------------------------
  // Properties of split

  lemma {:induction false} PiecesAreSpaceFree(t: string)
    ensures forall j :: 0 <= j < |Pieces(t)| ==> SpaceFree(Pieces(t)[j])
    decreases |t|
  {
    var k := SpaceIndex(t);
    SpaceIndexIsFirst(t);
    if k < |t| {
      PiecesAreSpaceFree(t[k + 1..]);
      assert SpaceFree(t[..k]);
    } else {
      assert SpaceFree(t);
    }
  }

  lemma KeepGivesTokens(p: string)
    requires SpaceFree(p)
    ensures forall j :: 0 <= j < |Keep(p)| ==> IsToken(Keep(p)[j])
  {
    var q := Trim(p);
    forall m | 0 <= m < |q| ensures q[m] != ' ' {
      TrimIndex(p, m);
    }
  }

  lemma {:induction false} TidyGivesTokens(ps: seq<string>)
    requires forall j :: 0 <= j < |ps| ==> SpaceFree(ps[j])
    ensures forall j :: 0 <= j < |Tidy(ps)| ==> IsToken(Tidy(ps)[j])
    decreases |ps|
  {
    if |ps| > 0 {
      KeepGivesTokens(ps[0]);
      TidyGivesTokens(ps[1..]);
    }
  }

  lemma CutGivesTokens(t: string)
    ensures forall j :: 0 <= j < |Cut(t)| ==> IsToken(Cut(t)[j])
  {
    PiecesAreSpaceFree(t);
    TidyGivesTokens(Pieces(t));
  }

  lemma {:induction false} SpaceIndexAppend(a: string, b: string)
    ensures SpaceIndex(a + b) == if SpaceIndex(a) < |a| then SpaceIndex(a) else |a| + SpaceIndex(b)
    decreases |a|
  {
    if |a| > 0 && a[0] != ' ' {
      assert (a + b)[1..] == a[1..] + b;
      SpaceIndexAppend(a[1..], b);
    } else if |a| == 0 {
      assert a + b == b;
    }
  }

  /** Splitting at a space is splitting each side separately. */
  lemma {:induction false} PiecesAtSpace(a: string, b: string)
    ensures Pieces(a + [' '] + b) == Pieces(a) + Pieces(b)
    decreases |a|
  {
    var k := SpaceIndex(a);
    if k < |a| {
      PiecesAtSpace(a[k + 1..], b);
      PiecesAtInnerSpace(a, b, k);
    } else {
      PiecesAtOuterSpace(a, b);
    }
  }

  lemma SpaceIndexBeforeSpace(a: string, b: string)
    ensures SpaceIndex(a + [' '] + b) == SpaceIndex(a)
  {
    SpaceIndexAppend(a, [' '] + b);
    assert a + [' '] + b == a + ([' '] + b);
  }

  /** `a` holds a space at `k`: the first piece is cut there. */
  lemma PiecesAtInnerSpace(a: string, b: string, k: nat)
    requires k == SpaceIndex(a) < |a|
    requires Pieces(a[k + 1..] + [' '] + b) == Pieces(a[k + 1..]) + Pieces(b)
    ensures Pieces(a + [' '] + b) == Pieces(a) + Pieces(b)
  {
    var rest := a[k + 1..];
    calc {
      Pieces(a + [' '] + b);
      { InnerSpaceHead(a, b, k); }
      [a[..k]] + Pieces(rest + [' '] + b);
      [a[..k]] + (Pieces(rest) + Pieces(b));
      { ConsAppend(a[..k], Pieces(rest), Pieces(b)); }
      ([a[..k]] + Pieces(rest)) + Pieces(b);
      { PiecesUnfold(a, k); }
      Pieces(a) + Pieces(b);
    }
  }

  lemma InnerSpaceHead(a: string, b: string, k: nat)
    requires k == SpaceIndex(a) < |a|
    ensures Pieces(a + [' '] + b) == [a[..k]] + Pieces(a[k + 1..] + [' '] + b)
  {
    var t := a + [' '] + b;
    assert t[..k] == a[..k];
    assert t[k + 1..] == a[k + 1..] + [' '] + b;
    assert Pieces(t) == [t[..k]] + Pieces(t[k + 1..]) by {
      SpaceIndexBeforeSpace(a, b);
    }
  }

  lemma ConsAppend(x: string, u: seq<string>, v: seq<string>)
    ensures [x] + (u + v) == ([x] + u) + v
  {
  }

  /** `a` holds no space: it is the first piece. */
  lemma PiecesAtOuterSpace(a: string, b: string)
    requires SpaceIndex(a) == |a|
    ensures Pieces(a + [' '] + b) == Pieces(a) + Pieces(b)
  {
    var t := a + [' '] + b;
    SpaceIndexBeforeSpace(a, b);
    assert t[..|a|] == a;
    assert t[|a| + 1..] == b;
  }

  lemma {:induction false} TidyAppend(a: seq<string>, b: seq<string>)
    ensures Tidy(a + b) == Tidy(a) + Tidy(b)
    decreases |a|
  {
    if |a| == 0 {
      assert a + b == b;
    } else {
      assert (a + b)[1..] == a[1..] + b;
      TidyAppend(a[1..], b);
    }
  }

  /** Cutting at a space is cutting each side separately. */
  lemma CutAtSpace(a: string, b: string)
    ensures Cut(a + [' '] + b) == Cut(a) + Cut(b)
  {
    PiecesAtSpace(a, b);
    TidyAppend(Pieces(a), Pieces(b));
  }

  lemma PiecesUnfold(t: string, k: nat)
    requires k == SpaceIndex(t) < |t|
    ensures Pieces(t) == [t[..k]] + Pieces(t[k + 1..])
  {
  }

  lemma TidySingle(p: string)
    ensures Tidy([p]) == Keep(p)
  {
    assert [p][1..] == [];
  }

  /** `Cut` takes the trimmed first piece, then cuts what follows the
      first space. */
  lemma CutUnfold(t: string, k: nat)
    requires k == SpaceIndex(t) < |t|
    ensures Cut(t) == Keep(t[..k]) + Cut(t[k + 1..])
  {
    PiecesUnfold(t, k);
    TidyAppend([t[..k]], Pieces(t[k + 1..]));
    TidySingle(t[..k]);
  }

  /** Without a space, `Cut` keeps the trimmed text. */
  lemma CutOfSpaceFree(t: string)
    requires SpaceIndex(t) == |t|
    ensures Cut(t) == Keep(t)
  {
    assert Pieces(t) == [t];
    TidySingle(t);
  }

  /** A token made of one non-trimmable, space-free run. */
  lemma CutOfRun(u: string)
    requires u != []
    requires forall m :: 0 <= m < |u| ==> !IsTrimmable(u[m])
    ensures Cut(u) == [u]
  {
    assert SpaceIndex(u) == |u|;
    CutOfSpaceFree(u);
    assert Trim(u) == u;
  }

  /** No token of `ts` holds an operator character. */
  ghost predicate NoneHasOperatorChars(ts: seq<string>) {
    forall j :: 0 <= j < |ts| ==> NoOperatorChars(ts[j])
  }

  lemma NoOperatorCharsSlice(t: string, a: nat, b: nat)
    requires a <= b <= |t| && NoOperatorChars(t)
    ensures NoOperatorChars(t[a..b])
  {
    forall m | 0 <= m < b - a ensures !IsOperatorChar(t[a..b][m]) {
      assert t[a..b][m] == t[a + m];
    }
  }

  lemma NoneHasOperatorCharsAppend(a: seq<string>, b: seq<string>)
    requires NoneHasOperatorChars(a) && NoneHasOperatorChars(b)
    ensures NoneHasOperatorChars(a + b)
  {
    forall j | 0 <= j < |a + b| ensures NoOperatorChars((a + b)[j]) {
      if j >= |a| {
        assert (a + b)[j] == b[j - |a|];
      }
    }
  }

  lemma NoneHasOperatorCharsIsolated(ts: seq<string>)
    requires NoneHasOperatorChars(ts)
    ensures AllIsolated(ts)
  {
  }

  /** Cutting text without operator characters yields tokens without them. */
  lemma {:induction false} CutKeepsNoOperatorChars(t: string)
    requires NoOperatorChars(t)
    ensures NoneHasOperatorChars(Cut(t))
    ensures AllIsolated(Cut(t))
    decreases |t|
  {
    var k := SpaceIndex(t);
    if k < |t| {
      var rest := t[k + 1..];
      NoOperatorCharsSlice(t, k + 1, |t|);
      CutKeepsNoOperatorChars(rest);
      CutStepKeepsNoOperatorChars(t, k, rest);
    } else {
      CutOfSpaceFree(t);
      KeepKeepsNoOperatorChars(t);
    }
    NoneHasOperatorCharsIsolated(Cut(t));
  }

  /** Trimming text without operator characters leaves none. */
  lemma KeepKeepsNoOperatorChars(p: string)
    requires NoOperatorChars(p)
    ensures NoneHasOperatorChars(Keep(p))
  {
    var q := Trim(p);
    forall m | 0 <= m < |q| ensures !IsOperatorChar(q[m]) {
      TrimIndex(p, m);
    }
  }

  /** The step of `CutKeepsNoOperatorChars` at the first space. */
  lemma CutStepKeepsNoOperatorChars(t: string, k: nat, rest: string)
    requires k == SpaceIndex(t) < |t| && rest == t[k + 1..]
    requires NoOperatorChars(t)
    requires NoneHasOperatorChars(Cut(rest))
    ensures NoneHasOperatorChars(Cut(t))
  {
    NoOperatorCharsSlice(t, 0, k);
    KeepKeepsNoOperatorChars(t[0..k]);
    assert t[0..k] == t[..k];
    CutUnfold(t, k);
    NoneHasOperatorCharsAppend(Keep(t[..k]), Cut(rest));
  }

  /** Every token of `ts` keeps operator characters apart. */
  ghost predicate AllIsolated(ts: seq<string>) {
    forall j :: 0 <= j < |ts| ==> Isolated(ts[j])
  }

  /** Tokens that keep operator characters apart, around one more such
      token. */
  lemma AllIsolatedAround(a: seq<string>, op: string, c: seq<string>)
    requires AllIsolated(a) && Isolated(op) && AllIsolated(c)
    ensures AllIsolated(a + [op] + c)
  {
    var t := a + [op] + c;
    forall j | 0 <= j < |t| ensures Isolated(t[j]) {
      if j < |a| {
        assert t[j] == a[j];
      } else if j == |a| {
        assert t[j] == op;
      } else {
        assert t[j] == c[j - |a| - 1];
      }
    }
  }

  /** The characters an operator iteration of `split`'s loop consumes
      form an operator token. */
  lemma OperatorChunk(s: string, i: nat, j: nat)
    requires i < |s| && IsOperatorChar(s[i]) && j == i + Width(s, i)
    ensures IsOperatorToken(s[i..j])
    ensures forall m :: i <= m < j ==> !IsTrimmable(s[m])
  {
  }

  /** A plain character passes through `split`'s loop unchanged. */
  lemma SpreadOfPlain(s: string, i: nat)
    requires i < |s| && !IsOperatorChar(s[i])
    ensures Spread(s, i) == [s[i]] + Spread(s, i + 1)
  {
    assert Width(s, i) == 1;
    assert s[i..i + 1] == [s[i]];
  }

  /** An operator iteration of `split`'s loop surrounds what it consumes
      with spaces. */
  lemma SpreadOfOperator(s: string, i: nat, j: nat)
    requires i < |s| && IsOperatorChar(s[i]) && j == i + Width(s, i)
    ensures Spread(s, i) == [' '] + s[i..j] + [' '] + Spread(s, j)
  {
  }

  /** The operator text consumed by one iteration is a single token. */
  lemma CutOfOperator(s: string, i: nat, j: nat)
    requires i < |s| && IsOperatorChar(s[i]) && j == i + Width(s, i)
    ensures Cut(s[i..j]) == [s[i..j]]
  {
    var op := s[i..j];
    OperatorChunk(s, i, j);
    assert forall m :: 0 <= m < |op| ==> !IsTrimmable(op[m]);
    CutOfRun(op);
  }

  /** A run of text, a space, a token and a space, then more text. */
  lemma CutAroundToken(w: string, op: string, tail: string)
    requires Cut(op) == [op]
    ensures Cut(w + ([' '] + op + [' '] + tail)) == Cut(w) + [op] + Cut(tail)
  {
    var rest := op + [' '] + tail;
    calc {
      Cut(w + ([' '] + op + [' '] + tail));
      { SpacedAround(w, op, tail); }
      Cut(w + [' '] + rest);
      { CutAtSpace(w, rest); }
      Cut(w) + Cut(rest);
      { CutAtSpace(op, tail); }
      Cut(w) + ([op] + Cut(tail));
      { AppendAssoc(Cut(w), [op], Cut(tail)); }
      Cut(w) + [op] + Cut(tail);
    }
  }

  lemma SpacedAround(w: string, op: string, tail: string)
    ensures w + ([' '] + op + [' '] + tail) == w + [' '] + (op + [' '] + tail)
  {
  }

  lemma AppendAssoc(a: seq<string>, b: seq<string>, c: seq<string>)
    ensures a + (b + c) == a + b + c
  {
  }

  /** Operator characters become a token of their own between the text
      before them and the text after them. */
  lemma CutAroundOperator(w: string, s: string, i: nat, j: nat)
    requires i < |s| && IsOperatorChar(s[i]) && j == i + Width(s, i)
    ensures Cut(w + Spread(s, i)) == Cut(w) + [s[i..j]] + Cut(Spread(s, j))
  {
    SpreadOfOperator(s, i, j);
    CutOfOperator(s, i, j);
    CutAroundToken(w, s[i..j], Spread(s, j));
  }

  /** Every token of `Cut(w + Spread(s, i))` keeps operator characters
      apart, provided the leading text `w` has none. */
  lemma {:induction false} SpreadIsolates(w: string, s: string, i: nat)
    requires i <= |s|
    requires NoOperatorChars(w)
    ensures AllIsolated(Cut(w + Spread(s, i)))
    decreases |s| - i, 1
  {
    if i == |s| {
      assert w + Spread(s, i) == w;
      CutKeepsNoOperatorChars(w);
    } else if IsOperatorChar(s[i]) {
      SpreadIsolatesOperator(w, s, i);
    } else {
      SpreadOfPlain(s, i);
      assert w + Spread(s, i) == (w + [s[i]]) + Spread(s, i + 1);
      SpreadIsolates(w + [s[i]], s, i + 1);
    }
  }

  lemma {:induction false} SpreadIsolatesOperator(w: string, s: string, i: nat)
    requires i < |s| && IsOperatorChar(s[i])
    requires NoOperatorChars(w)
    ensures AllIsolated(Cut(w + Spread(s, i)))
    decreases |s| - i, 0
  {
    var j := i + Width(s, i);
    SpreadIsolates("", s, j);
    EmptyPrefix(Spread(s, j));
    CutKeepsNoOperatorChars(w);
    OperatorChunk(s, i, j);
    CutAroundOperator(w, s, i, j);
    AllIsolatedAround(Cut(w), s[i..j], Cut(Spread(s, j)));
  }

  lemma EmptyPrefix(t: string)
    ensures "" + t == t
  {
  }

  /** `split` puts every operator character in a token of its own, except
      that an operator character followed by a non-parenthesis operator
      character forms a two-character token. */
  lemma SplitIsolatesOperators(s: string)
    ensures forall j :: 0 <= j < |Split(s)| ==> NoOperatorChars(Split(s)[j]) || IsOperatorToken(Split(s)[j])
  {
    SpreadIsolates("", s, 0);
    assert "" + Spread(s, 0) == Spread(s, 0);
  }

  // ---------------------------------------------------------------------
  // A reference reading of split

  /** The word read so far, as a token list: nothing when it is empty. */
  function Word(w: string): (r: seq<string>)
    ensures |r| <= 1 && (r == [] <==> w == "")
  {
    if w == "" then [] else [w]
  }

  /** `split` read directly, one character at a time, for text without
      control characters: `w` is the word being read. A space ends the
      word. An operator character ends it too and is a token of its own,
      except that it forms one two-character token with the next character
      when that one is an operator character other than a parenthesis and
      at least one more character follows it (the loop's
      `i < chars.length - 2`). */
  function Scan(s: string, i: nat, w: string): seq<string>
    requires i <= |s|
    decreases |s| - i
  {
    if i == |s| then Word(w)
    else if s[i] == ' ' then Word(w) + Scan(s, i + 1, "")
    else if IsOperatorChar(s[i]) && i + 2 < |s| && IsOperatorChar(s[i + 1]) && !IsParen(s[i + 1]) then
      Word(w) + [s[i..i + 2]] + Scan(s, i + 2, "")
    else if IsOperatorChar(s[i]) then Word(w) + [[s[i]]] + Scan(s, i + 1, "")
    else Scan(s, i + 1, w + [s[i]])
  }

  /** A word is one token once cut. */
  lemma CutOfWord(w: string)
    requires forall m :: 0 <= m < |w| ==> !IsTrimmable(w[m])
    ensures Cut(w) == Word(w)
  {
    if w == "" {
      assert Pieces(w) == [w];
      TidySingle(w);
    } else {
      CutOfRun(w);
    }
  }

  /** `Scan` at an operator character: the word so far, then the operator
      characters `split`'s loop consumes, then the rest. */
  lemma ScanOfOperator(s: string, i: nat, j: nat, w: string)
    requires i < |s| && IsOperatorChar(s[i]) && j == i + Width(s, i)
    ensures Scan(s, i, w) == Word(w) + [s[i..j]] + Scan(s, j, "")
  {
    if Width(s, i) == 1 {
      assert s[i..i + 1] == [s[i]];
    }
  }

  /** The operator step of `CutIsScan`. */
  lemma CutIsScanAtOperator(s: string, i: nat, j: nat, w: string)
    requires i < |s| && IsOperatorChar(s[i]) && j == i + Width(s, i)
    requires forall m :: 0 <= m < |w| ==> !IsTrimmable(w[m])
    requires Cut("" + Spread(s, j)) == Scan(s, j, "")
    ensures Cut(w + Spread(s, i)) == Scan(s, i, w)
  {
    EmptyPrefix(Spread(s, j));
    CutAroundOperator(w, s, i, j);
    CutOfWord(w);
    ScanOfOperator(s, i, j, w);
  }

  /** The space step of `CutIsScan`. */
  lemma CutIsScanAtSpace(s: string, i: nat, w: string)
    requires i < |s| && s[i] == ' '
    requires forall m :: 0 <= m < |w| ==> !IsTrimmable(w[m])
    requires Cut("" + Spread(s, i + 1)) == Scan(s, i + 1, "")
    ensures Cut(w + Spread(s, i)) == Scan(s, i, w)
  {
    assert "" + Spread(s, i + 1) == Spread(s, i + 1);
    SpreadOfPlain(s, i);
    assert w + Spread(s, i) == w + [' '] + Spread(s, i + 1);
    CutAtSpace(w, Spread(s, i + 1));
    CutOfWord(w);
  }

  /** The step of `CutIsScan` over a character that joins the word. */
  lemma CutIsScanAtPlain(s: string, i: nat, w: string)
    requires i < |s| && !IsOperatorChar(s[i]) && s[i] != ' '
    requires Cut((w + [s[i]]) + Spread(s, i + 1)) == Scan(s, i + 1, w + [s[i]])
    ensures Cut(w + Spread(s, i)) == Scan(s, i, w)
  {
    SpreadOfPlain(s, i);
    ConsAssoc(w, s[i], Spread(s, i + 1));
    ScanOfPlain(s, i, w);
  }

  lemma ConsAssoc(w: string, c: char, r: string)
    ensures w + ([c] + r) == (w + [c]) + r
  {
  }

  lemma ScanOfPlain(s: string, i: nat, w: string)
    requires i < |s| && !IsOperatorChar(s[i]) && s[i] != ' '
    ensures Scan(s, i, w) == Scan(s, i + 1, w + [s[i]])
  {
  }

  /** A character that is neither a space nor a control character keeps the
      word free of trimmable characters. */
  lemma WordGrows(s: string, i: nat, w: string)
    requires i < |s| && s[i] != ' ' && NoControlChars(s)
    requires forall m :: 0 <= m < |w| ==> !IsTrimmable(w[m])
    ensures forall m :: 0 <= m < |w + [s[i]]| ==> !IsTrimmable((w + [s[i]])[m])
  {
    assert s[i] >= ' ';
  }

  /** Cutting the word read so far followed by the rest of the spread text
      gives the tokens `Scan` reads from there. */
  lemma {:induction false} CutIsScan(s: string, i: nat, w: string)
    requires i <= |s|
    requires NoControlChars(s)
    requires forall m :: 0 <= m < |w| ==> !IsTrimmable(w[m])
    ensures Cut(w + Spread(s, i)) == Scan(s, i, w)
    decreases |s| - i, 1
  {
    if i == |s| {
      assert w + Spread(s, i) == w;
      CutOfWord(w);
    } else if IsOperatorChar(s[i]) {
      CutIsScanOperator(s, i, w);
    } else if s[i] == ' ' {
      CutIsScanSpace(s, i, w);
    } else {
      CutIsScanPlain(s, i, w);
    }
  }

  lemma {:induction false} CutIsScanOperator(s: string, i: nat, w: string)
    requires i < |s| && IsOperatorChar(s[i]) && NoControlChars(s)
    requires forall m :: 0 <= m < |w| ==> !IsTrimmable(w[m])
    ensures Cut(w + Spread(s, i)) == Scan(s, i, w)
    decreases |s| - i, 0
  {
    var j := i + Width(s, i);
    CutIsScan(s, j, "");
    CutIsScanAtOperator(s, i, j, w);
  }

  lemma {:induction false} CutIsScanSpace(s: string, i: nat, w: string)
    requires i < |s| && s[i] == ' ' && NoControlChars(s)
    requires forall m :: 0 <= m < |w| ==> !IsTrimmable(w[m])
    ensures Cut(w + Spread(s, i)) == Scan(s, i, w)
    decreases |s| - i, 0
  {
    CutIsScan(s, i + 1, "");
    CutIsScanAtSpace(s, i, w);
  }

  lemma {:induction false} CutIsScanPlain(s: string, i: nat, w: string)
    requires i < |s| && !IsOperatorChar(s[i]) && s[i] != ' ' && NoControlChars(s)
    requires forall m :: 0 <= m < |w| ==> !IsTrimmable(w[m])
    ensures Cut(w + Spread(s, i)) == Scan(s, i, w)
    decreases |s| - i, 0
  {
    WordGrows(s, i, w);
    CutIsScan(s, i + 1, w + [s[i]]);
    CutIsScanAtPlain(s, i, w);
  }

  /** For text without control characters, `split` gives exactly the
      tokens of the direct reading: words between spaces and operators,
      and operator tokens of one or two characters as `Scan` pairs them. */
  lemma SplitIsScan(s: string)
    requires NoControlChars(s)
    ensures Split(s) == Scan(s, 0, "")
  {
    CutIsScan(s, 0, "");
    assert "" + Spread(s, 0) == Spread(s, 0);
  }

  /** `x>=1`: the two operator characters form one token. */
  lemma ScanExampleMerged()
    ensures Scan("x>=1", 0, "") == ["x", ">=", "1"]
  {
    var s := "x>=1";
    assert Scan(s, 4, "1") == ["1"];
    assert "" + [s[3]] == "1";
    assert s[1..3] == ">=";
    assert Scan(s, 1, "x") == ["x"] + [">="] + ["1"];
    assert "" + [s[0]] == "x";
  }

  /** `a>=`: the pair ends the text, so `i < chars.length - 2` fails and
      `>` and `=` become two tokens. */
  lemma ScanExampleAtEnd()
    ensures Scan("a>=", 0, "") == ["a", ">", "="]
  {
    var s := "a>=";
    assert Scan(s, 2, "") == [[s[2]]];
    assert Scan(s, 1, "a") == ["a"] + [[s[1]]] + [[s[2]]];
    assert "" + [s[0]] == "a";
  }

  /** Concatenation of a token list. */
  function Concat(ts: seq<string>): string {
    if |ts| == 0 then "" else ts[0] + Concat(ts[1..])
  }

  lemma {:induction false} ConcatAppend(a: seq<string>, b: seq<string>)
    ensures Concat(a + b) == Concat(a) + Concat(b)
    decreases |a|
  {
    if |a| > 0 {
      assert (a + b)[1..] == a[1..] + b;
      ConcatAppend(a[1..], b);
    } else {
      assert a + b == b;
    }
  }

  /** A space-free piece without control characters survives trimming
      whole. */
  lemma KeepOfRun(head: string)
    requires NoControlChars(head) && SpaceFree(head)
    ensures Concat(Keep(head)) == head
    ensures RemoveSpaces(head) == head
  {
    assert forall m :: 0 <= m < |head| ==> !IsTrimmable(head[m]);
    RemoveSpacesOfSpaceFree(head);
    if head != "" {
      assert Concat([head]) == head + Concat([]);
    }
  }

  /** Without control characters, cutting loses exactly the spaces. */
  lemma {:induction false} CutLosesOnlySpaces(t: string)
    requires NoControlChars(t)
    ensures Concat(Cut(t)) == RemoveSpaces(t)
    decreases |t|
  {
    var k := SpaceIndex(t);
    var head := t[..k];
    assert SpaceFree(head) by {
      SpaceIndexIsFirst(t);
    }
    KeepOfRun(head);
    if k < |t| {
      var rest := t[k + 1..];
      CutUnfold(t, k);
      CutLosesOnlySpaces(rest);
      calc {
        Concat(Cut(t));
        Concat(Keep(head) + Cut(rest));
        { ConcatAppend(Keep(head), Cut(rest)); }
        head + RemoveSpaces(rest);
        { RemoveSpacesOfSpace(rest); }
        RemoveSpaces(head) + RemoveSpaces([' '] + rest);
        { RemoveSpacesAppend(head, [' '] + rest); }
        RemoveSpaces(head + ([' '] + rest));
        { SplitAround(t, k); }
        RemoveSpaces(t);
      }
    } else {
      assert head == t;
      CutOfSpaceFree(t);
    }
  }

  lemma ChunkAddsOnlySpaces(s: string, i: nat, j: nat)
    requires i < |s| && j == i + Width(s, i)
    requires NoControlChars(s)
    ensures RemoveSpaces(Chunk(s, i)) == RemoveSpaces(s[i..j])
    ensures NoControlChars(Chunk(s, i))
  {
    var body := s[i..j];
    if IsOperatorChar(s[i]) {
      RemoveSpacesAppend([' '] + body, [' ']);
      RemoveSpacesAppend([' '], body);
    }
  }

  lemma SpreadOfChunk(s: string, i: nat, j: nat)
    requires i < |s| && j == i + Width(s, i)
    ensures Spread(s, i) == Chunk(s, i) + Spread(s, j)
  {
    assert Spread(s, i) == Chunk(s, i) + Spread(s, i + Width(s, i));
  }

  /** Spreading only adds spaces, and adds no control character. */
  lemma {:induction false} SpreadAddsOnlySpaces(s: string, i: nat)
    requires i <= |s|
    requires NoControlChars(s)
    ensures RemoveSpaces(Spread(s, i)) == RemoveSpaces(s[i..])
    ensures NoControlChars(Spread(s, i))
    decreases |s| - i
  {
    if i < |s| {
      var j := i + Width(s, i);
      SpreadAddsOnlySpaces(s, j);
      SpreadStepRemovesSpaces(s, i, j);
      SpreadStepAddsNoControlChars(s, i, j);
    } else {
      assert s[i..] == [];
    }
  }

  /** One chunk of `SpreadAddsOnlySpaces`: the spaces removed agree. */
  lemma SpreadStepRemovesSpaces(s: string, i: nat, j: nat)
    requires i < |s| && j == i + Width(s, i)
    requires NoControlChars(s)
    requires RemoveSpaces(Spread(s, j)) == RemoveSpaces(s[j..])
    ensures RemoveSpaces(Spread(s, i)) == RemoveSpaces(s[i..])
  {
    SpreadOfChunk(s, i, j);
    ChunkAddsOnlySpaces(s, i, j);
    RemoveSpacesAppend(Chunk(s, i), Spread(s, j));
    RemoveSpacesAppend(s[i..j], s[j..]);
    SliceSplit(s, i, j);
  }

  /** One chunk of `SpreadAddsOnlySpaces`: no control character appears. */
  lemma SpreadStepAddsNoControlChars(s: string, i: nat, j: nat)
    requires i < |s| && j == i + Width(s, i)
    requires NoControlChars(s)
    requires NoControlChars(Spread(s, j))
    ensures NoControlChars(Spread(s, i))
  {
    SpreadOfChunk(s, i, j);
    ChunkAddsOnlySpaces(s, i, j);
    NoControlCharsAppend(Chunk(s, i), Spread(s, j));
  }

  /** For input without control characters, the tokens of `split` put
      back together are the input with its spaces deleted: nothing but
      spaces is lost, and nothing is reordered. */
  lemma SplitLosesOnlySpaces(s: string)
    requires NoControlChars(s)
    ensures Concat(Split(s)) == RemoveSpaces(s)
  {
    SpreadAddsOnlySpaces(s, 0);
    assert s[0..] == s;
    CutLosesOnlySpaces(Spread(s, 0));
  }
}

=== FILE: serial_data.dfy ===
/** The serialized form every distributed structure exchanges: Hazelcast's
    `Data`, an opaque byte payload compared by content. */
module SerialData {

  /** `com.hazelcast.nio.serialization.Data`. */
  datatype Data = Data(bytes: seq<bv8>)
}

=== FILE: wrappers.dfy ===
/** Failure-compatible wrappers shared by every module of the model: `Option`
    stands for a Java reference that may be null, `Result` for a computation
    that may end in an exception. */
module Wrappers {

  /** A value that may be absent (a Java `null`). */
  datatype Option<+T> = None | Some(value: T)

  /** The Java exceptions the modelled code can raise or rethrow. */
  datatype Fault =
    | IndexOutOfBounds          // java.util.List.remove past the end
    | StringIndexOutOfBounds    // String.substring with bad bounds
    | IllegalArgument(message: string)
    | Remote(cause: string)     // anything surfaced by locating, invoking or awaiting
    | Malformed(what: string)   // a serialized form that cannot be read back
    | ClassCast(expected: string) // a response of another type than the one cast to
    | NullPointer               // a method called on a null reference

  /** Either a value or the fault that replaced it. */
  datatype Result<+R> = Success(value: R) | Failure(error: Fault) {

    predicate IsFailure() {
      Failure?
    }

    function PropagateFailure<U>(): Result<U>
      requires Failure?
    {
      Failure(error)
    }

    function Extract(): R
      requires Success?
    {
      value
    }
  }
}
